=== FILE: README.md ===
# A* grid-puzzle solver, modelled in Dafny

This project models the solver in `src/AstarSolver.tsx`. It takes an input
grid and an output grid of string labels. The empty label `""` marks a
blank cell. The solver searches for a sequence of blank slides that turns
the input into the output. A blank slide swaps a blank cell with an
orthogonally adjacent cell.

The solver works in these steps:

- `mayConvertible` checks that the label counts agree (error `CODE1`).
- `encoder` numbers the labels 1, 2, 3, … in first-seen row-major order.
- Without a blank label the solver gives up (error `CODE2`).
- A best-first search over id grids runs, using `g + hCost` as the score.
  Each step's neighbours come from `obtainNextState`.
- If the goal never got a parent link, the solver fails (error `CODE3`).
  Otherwise it follows the parent links back from the goal, reverses them
  and decodes every grid back to labels.

The modules follow the source's functions:

| file | module | models |
|---|---|---|
| `seqs.dfy` | `Seqs` | the insertion-ordered `Set` (`Dedup`, `Remove`), the first-minimum `reduce` (`FirstMinIndex`), `reverse` |
| `grids.dfy` | `Grids` | grids, positions, Manhattan distance, cell swaps, row-major scans, rearrangement (`Perm`) |
| `codec.dfy` | `Codec` | `encoder`, `encoderWithMap`, `decoder` |
| `feasibility.dfy` | `Feasibility` | `mayConvertible` |
| `serializer.dfy` | `Serializer` | `stringify`, `destring` |
| `heuristic.dfy` | `Heuristic` | `hCost` |
| `neighbours.dfy` | `Neighbours` | `obtainNextState` |
| `solver.dfy` | `Solver` | `solver`: the search tables, the loop, path reconstruction and decoding |

Design choices in the model:

- **Search keys.** The search tables are keyed by id grids, not by their
  `stringify` text. `Serializer.StringifyInjective` shows that this changes
  nothing for the non-empty grids the solver handles.
- **Open set.** `open` is a sequence without repeats, kept in insertion
  order. It stands for the JavaScript `Set`, whose iteration order decides
  ties in line 141.
- **Fuel.** The search loop gets a `fuel` bound on the number of
  expansions. The bound is spent after the goal test. When it runs out,
  the outcome is `OutOfFuel`, which is the model's own outcome.
  `Solver.Explore` and `Solver.Run` return the trace of the tables (a
  ghost value). Each step of it is related by `Solver.Expanded`, which
  `Solver.ExpandedExactly` shows holds exactly for the code's expansion of
  the selected grid. `OutOfFuel` comes only after all `fuel` expansions.

Two behaviours of the code differ from how the solver is usually
described. The model follows the code in both:

- **Exact counts.** `mayConvertible` (line 42) requires each output label to
  occur in the input exactly as often, not "at least as often". Labels that
  occur only in the input are ignored, so the check is not symmetric.
- **Equal grids give `CODE3`.** When the input equals the output, the
  search selects the start as the goal at once. The start never receives a
  parent link, so line 159 reports `CODE3` rather than a one-grid path. For
  the same reason every successful path has at least two grids.

## Model

| member | source | states |
|---|---|---|
| Codec.Encode | src/AstarSolver.tsx:1-24 | The id grid has the input's shape and every cell holds its label's id. Exactly the labels of the grid are numbered, with ids 1..k (k = number of distinct labels, so 0 is unused) and no id shared. Ids grow in first-seen row-major order. `decodeMap` is the exact inverse of `encodeMap`. The blank flag is set iff `""` occurs |
| Codec.EncodeWithMap | src/AstarSolver.tsx:26-28 | `encoderWithMap` keeps the grid's shape and replaces every label by its id in the given table (`Codec.DecodeEncodeWithMap` is its inverse) |
| Codec.Decode | src/AstarSolver.tsx:30-32 | `decoder` keeps the grid's shape and replaces every id by its label in the given table (`Codec.DecodeEncode` shows it inverts `encoder`) |
| Codec.EncodeWithMapAgrees | src/AstarSolver.tsx:26-28 | `encoderWithMap` with the table `encoder` built for a grid reproduces `encoder`'s own id grid |
| Codec.EncodeOther | src/AstarSolver.tsx:121-126 | A grid whose labels all occur in the input is fully numbered by the input's table. Its ids all occur in the input's id grid |
| Codec.DecodeEncodeWithMap | src/AstarSolver.tsx:26-32 | Decoding a grid numbered with the input's table gives the grid back, for any grid whose labels occur in the input |
| Codec.DecodeEncode | src/AstarSolver.tsx:1-32 | Round trip: `decoder(encoder(g).grid, decodeMap) == g` |
| Codec.LookupSwap | src/AstarSolver.tsx:30-32 | Renaming cells through a table commutes with swapping two cells |
| Codec.LookupInjective | src/AstarSolver.tsx:30-32 | Through a one-to-one table, two grids with the same decoding are the same grid |
| Feasibility.Tally | src/AstarSolver.tsx:38-39 | The count map has exactly the grid's labels as keys. Each count is the label's multiplicity |
| Feasibility.CountsAgreeMeaning | src/AstarSolver.tsx:41-46 | The loop over the output's counts succeeds iff every label occurring in the output occurs in the input exactly as often |
| Feasibility.MayConvertible | src/AstarSolver.tsx:34-47 | True iff every label occurring in the output has the same count in both grids |
| Feasibility.MayConvertibleReflexive | src/AstarSolver.tsx:34-47 | Every grid passes the check against itself |
| Feasibility.MayConvertibleNotSymmetric | src/AstarSolver.tsx:41-45 | A concrete pair passes in one order and fails in the other |
| Feasibility.MayConvertibleLabels | src/AstarSolver.tsx:41-45 | After a passing check, every output label is an input label |
| Feasibility.MayConvertibleSameSize | src/AstarSolver.tsx:34-47 | With equal cell counts, a passing check means the two grids hold the same multiset of labels |
| Serializer.ParseNatToString | src/AstarSolver.tsx:75-79 | `Number` of the decimal text of `n` is `n` |
| Serializer.SplitJoin | src/AstarSolver.tsx:79 | Joining the parts of a split with the separator gives the text back |
| Serializer.JoinSplit | src/AstarSolver.tsx:75-79 | Splitting a join of separator-free parts gives the parts back |
| Serializer.StringifyRows | src/AstarSolver.tsx:74-76 | The `stringify` text of a non-empty grid splits at `;` into exactly one piece per row, each the row's cells in decimal joined by `,` |
| Serializer.ParseCellsSpec | src/AstarSolver.tsx:79 | `row.split(',').map(Number)` succeeds iff every part is a digit string, and then gives one value per part, in order |
| Serializer.DestringCells | src/AstarSolver.tsx:78-80 | `destring(s)` succeeds iff every `,`-separated part of every `;`-separated piece of `s` is a digit string. It then has one row per piece, one cell per part, and each cell is the value of its part |
| Serializer.DestringStringify | src/AstarSolver.tsx:74-80 | `destring(stringify(g)) == g` for a non-empty grid of non-empty rows |
| Serializer.StringifyInjective | src/AstarSolver.tsx:74-80 | Two such grids have equal text iff they are equal, so the text is a faithful state key |
| Heuristic.MappingIsFilter | src/AstarSolver.tsx:51-58 | The list kept for each id is exactly the visited positions holding it, in visiting order |
| Heuristic.PositionMap | src/AstarSolver.tsx:51-58 | The keys are exactly the candidate's ids. Each list holds the id's positions in row-major order and is non-empty |
| Heuristic.BestMatch | src/AstarSolver.tsx:63-67 | The chosen candidate is one of the candidates, at distance no greater than any other. Every candidate listed before it is strictly farther, so ties go to the first |
| Heuristic.TermIsMinDist | src/AstarSolver.tsx:60-69 | Each goal cell adds the Manhattan distance to the nearest cell of the candidate holding the same id: no more than any such cell, and attained by one |
| Heuristic.HCostIsMinDistSum | src/AstarSolver.tsx:49-72 | `hCost(a, b)` equals an independent reference: the sum over every goal cell of the Manhattan distance to the nearest cell of `a` holding the same id |
| Heuristic.HCostAtGoal | src/AstarSolver.tsx:49-72 | The heuristic of the goal against itself is 0 |
| Heuristic.HCostZeroAtGoalOnly | src/AstarSolver.tsx:49-72 | On grids of one shape, a zero heuristic means the grids are equal |
| Heuristic.HCostZeroIff | src/AstarSolver.tsx:49-72 | On grids of one shape, the heuristic is 0 iff the candidate is the goal |
| Heuristic.PermDefined | src/AstarSolver.tsx:62 | A grid that rearranges the start, scored against a goal whose ids all occur in the start, has candidates for every goal id, so the `!` of line 62 does not fail on it |
| Seqs.Dedup | src/AstarSolver.tsx:98-113 | Collecting into a `Set` gives no repeats, exactly the elements added, and no more than were added |
| Seqs.FirstMinIndex | src/AstarSolver.tsx:141 | The `reduce` with a strict `<` ends on a minimum that is strictly below every earlier element |
| Seqs.Reverse | src/AstarSolver.tsx:170 | `reverse()` keeps the length and puts element `i` at position `n - 1 - i` |
| Seqs.Remove | src/AstarSolver.tsx:144 | `delete` removes exactly the deleted element and keeps a repeat-free collection repeat-free |
| Seqs.RemoveAt | src/AstarSolver.tsx:144 | On a repeat-free sequence, `delete` of the element at position `k` cuts it out and leaves the others in their order |
| Seqs.RemoveAbsent | src/AstarSolver.tsx:144 | `delete` of an absent element changes nothing |
| Neighbours.MoveDirection | src/AstarSolver.tsx:100-109 | Each grid produced for a blank comes from one of the four directions with an in-bounds target, and is the swap with that target |
| Neighbours.NextStates | src/AstarSolver.tsx:82-114 | The neighbour list has no repeats |
| Neighbours.NextStatesExact | src/AstarSolver.tsx:82-114 | A grid is in the neighbour list iff it is one blank slide away: some blank cell swapped with an adjacent in-bounds cell |
| Neighbours.SlideGenerated | src/AstarSolver.tsx:90-110 | Every swap of a blank cell with an adjacent cell is generated |
| Neighbours.NextStatesRearrange | src/AstarSolver.tsx:106-108 | Every neighbour keeps the grid's shape and its multiset of cells |
| Neighbours.NextStatesBound | src/AstarSolver.tsx:100-111 | There are at most four neighbours per blank cell |
| Neighbours.NoBlankNoMoves | src/AstarSolver.tsx:90-96 | With no blank cell, the neighbour list is empty |
| Neighbours.AdjacentBlanksStay | src/AstarSolver.tsx:105-107 | With two adjacent blank cells, the grid is among its own neighbours |
| Solver.InitialValid | src/AstarSolver.tsx:130-133 | The initial tables satisfy the search invariant `Valid` |
| Solver.F | src/AstarSolver.tsx:136-138 | `getF` is at least the cost so far, and equals it at the goal, where `hCost` is 0 |
| Solver.BestIndexLeast | src/AstarSolver.tsx:136-141 | The selected open grid has the least `g + hCost`, and every open grid before it in `open`'s order has a strictly greater one |
| Solver.ValidScored | src/AstarSolver.tsx:136-141 | Every open grid of a valid search can be scored against the goal: `hCost` is defined on it |
| Solver.Expand | src/AstarSolver.tsx:144-145 | The expanded grid leaves `open` and joins `close`. The cost and parent tables are unchanged |
| Solver.ExpandValid | src/AstarSolver.tsx:144-145 | Expanding an open grid keeps the search invariant |
| Solver.Relax | src/AstarSolver.tsx:147-156 | A neighbour whose known cost is at most the new cost is left alone. Otherwise it gets the new cost and `p` as parent, and joins `open` if absent. `close` never changes |
| Solver.RelaxTree | src/AstarSolver.tsx:147-156 | Relaxing keeps the parent links a tree rooted at the start, with costs strictly growing along each link |
| Solver.RelaxValid | src/AstarSolver.tsx:147-156 | Relaxing a generated neighbour of an expanded grid keeps the invariant: repeat-free `open`, every grid costed, the start never gets a parent, every link is a generated move, every grid rearranges the start |
| Solver.RelaxAllFacts | src/AstarSolver.tsx:147-156 | Over the whole neighbour loop: `close` and the cost of `p` stay, no cost rises, every relaxed grid ends costed at most one more than `p`, nothing leaves `open`, and a grid joins `open` iff it is new or got cheaper |
| Solver.RelaxNeighbours | src/AstarSolver.tsx:147-156 | The loop relaxes the neighbours in generated order. Afterwards every neighbour is costed at most `g[p] + 1`, no cost has risen, `close` and the cost of `p` are as they were, open grids stay open, and a grid newly open is new or got cheaper |
| Solver.RelaxAllTables | src/AstarSolver.tsx:147-156 | Over repeat-free neighbours, the loop gives each neighbour it improves (new, or dearer than `g[p] + 1`) the cost `g[p] + 1` and the parent `p`. Every other cost and parent entry is left as it was |
| Solver.RelaxAllOpen | src/AstarSolver.tsx:147-156 | Over repeat-free neighbours, the loop appends to `open`, in generated order, exactly the improved neighbours that were not open |
| Solver.ExpandNode | src/AstarSolver.tsx:144-156 | One full expansion keeps the search invariant and relates the tables by `Expanded`. `p` leaves `open` with the other grids keeping their order and joins `close`. The improved neighbours that were not open are appended to `open` in generated order. Each improved neighbour gets cost `g[p] + 1` and parent `p`. No other cost or parent entry changes |
| Solver.SettledUnique | src/AstarSolver.tsx:144-156 | That description leaves no freedom: two tables that both satisfy it are equal |
| Solver.ExpandedExactly | src/AstarSolver.tsx:144-156 | Tables are related by `Expanded` iff they are the code's result: `p` removed from `open` and closed, then each generated neighbour relaxed in order |
| Solver.GoalAfterFirst | src/AstarSolver.tsx:140-156 | If the output is one slide from the start, expanding the start leaves the goal open at cost 1 with the start as its parent, and every open grid costs at least 1 |
| Solver.SelectsGoal | src/AstarSolver.tsx:136-142 | In that state the selection picks the goal: it alone has `g + hCost` equal to 1, because `hCost` is positive on every other grid |
| Solver.Explore | src/AstarSolver.tsx:140-157 | The loop keeps the invariant. It returns the trace of its tables: it starts at the initial tables, and each step is `Expanded` (exactly the code's expansion, by `Solver.ExpandedExactly`) of the grid the selection picks, which is not the goal. There are at most `fuel` steps. It is cut short only after exactly `fuel` steps, with a non-goal grid selected. Unless cut short, it ends with `open` empty or the goal selected. When start equals goal it stops at once, with the initial tables. When the goal is one slide from the start and the bound allows one expansion, it ends uncut with the start as the goal's parent |
| Solver.TraceBack | src/AstarSolver.tsx:163-169 | The walk back from the goal reaches the start. Each grid's parent is the next grid. The trace has at least two grids |
| Solver.Reconstruct | src/AstarSolver.tsx:163-170 | The reversed trace runs from the start to the goal, and each grid's parent is the grid before it |
| Solver.LinkedSlides | src/AstarSolver.tsx:147-170 | Along such a path every grid rearranges the start and each grid is one blank slide from the next |
| Solver.DecodeStep | src/AstarSolver.tsx:172 | A blank slide on ids decodes to a blank slide on labels when the blank id decodes to `""` |
| Solver.DecodeAllSteps | src/AstarSolver.tsx:172 | Decoding every grid of a path of slides gives a path of slides on labels |
| Solver.TwoGridPath | src/AstarSolver.tsx:163-170 | When the goal's parent is the start, the reconstructed path is exactly `[start, goal]` |
| Solver.Trace | src/AstarSolver.tsx:163-172 | The decoded path is a solution from the input to the output, and is `[input, output]` when the goal's parent is the start |
| Solver.SlideEncoded | src/AstarSolver.tsx:121-134 | Numbering keeps a single slide a single slide: when the output is one slide of `""` from a different input, the goal is one slide of the blank id from a different start (`Solver.DecodeStep` is the converse) |
| Solver.SlideFeasible | src/AstarSolver.tsx:117-124 | A single slide passes both early checks: the counts agree and the input has a blank |
| Solver.Prepare | src/AstarSolver.tsx:121-134 | The blank flag is set iff `""` occurs. When set, the start and goal decode back to the input and output, the blank id decodes to `""`, no two ids decode to the same label, the goal uses only the start's ids, and equal grids give equal ends |
| Solver.Run | src/AstarSolver.tsx:134-172 | The result is `CODE3`, a path or `OutOfFuel`, together with the final tables and the trace of the loop. Those tables are valid. The trace makes at most `fuel` expansions, each exactly the code's expansion of the grid the selection picks. `OutOfFuel` comes only after exactly `fuel` expansions, with a non-goal grid still selected. Unless cut short, the loop ended with `open` empty or the goal selected. Not cut short, the result is `CODE3` iff the goal has no parent link. Equal grids give `CODE3`. A path runs from the input to the output in blank slides. When the output is one slide from a different input and the bound allows one expansion, the result is `[input, output]` |
| Solver.Solve | src/AstarSolver.tsx:116-173 | `CODE1` iff the count check fails. `CODE2` iff the check passes and the input has no blank. Equal grids with a blank give `CODE3`. Any path has at least two grids, starts at the input, ends at the output, and moves by one blank slide per step. When the output is one slide from a different input and the bound allows one expansion, the result is the path `[input, output]` |

## Left out

- `src/App.tsx` (grid editing and display) is not part of this model.
- Termination of the search loop is not modelled. A closed grid can be
  reopened, so `Solver.Explore` and `Solver.Solve` take a `fuel` bound on
  expansions and may report `OutOfFuel`, which the code never does.
- Solver.Solve: does not state that the path is shortest, or that `CODE3`
  means the output is unreachable. The search's optimality and completeness
  are not modelled beyond the one-slide case, where the result is proved to
  be the two-grid path.
- The tables are keyed by id grids rather than their `stringify` text. The
  serializer is modelled on its own, and `Serializer.StringifyInjective`
  links the two.
- Neighbours.NextStates: works on the grid rather than its text, and does
  not state the order of the neighbours, only which grids they are.
- Seqs.Dedup: does not state that the first occurrences keep their order.
  The body keeps it, so `open` and the neighbour list are ordered as in the
  code.
- Seqs.Remove: its own contract gives membership only. The order is
  stated by `Seqs.RemoveAt` and `Seqs.RemoveAbsent`.
- JavaScript's `Number` conversion is not modelled. `Serializer.Destring`
  parses only non-empty decimal digit strings and returns `None` for
  anything else, so the texts `stringify` writes are covered.
- Ragged or empty grids are excluded by preconditions. The code reads the
  width off row 0 and assumes the rows match.
- Heuristic.HCost: requires every goal id to occur in the candidate (the
  code would throw). The search meets this: `Solver.ValidScored` shows that
  every open grid can be scored, through `Heuristic.PermDefined`, because
  every grid met rearranges the start and `Solver.Prepare` shows that the
  goal uses only the start's ids.
- Performance, such as the linear scans of `open`, is not modelled.

=== FILE: codec.dfy ===
/**
  The symbol codec of `src/AstarSolver.tsx`: string labels are numbered
  1, 2, 3, … in the order a row-major scan first meets them (`encoder`),
  other grids are numbered with an existing table (`encoderWithMap`), and
  id grids are turned back into label grids (`decoder`).
 */
module Codec {
  import opened Grids

  /** The state of the scan in `encoder`: the labels of `encodeMap` in
      insertion order, `encodeMap` itself, and `nextID`. */
  datatype Scan = Scan(keys: seq<string>, ids: map<string, nat>, nextId: nat)

  const Initial: Scan := Scan([], map[], 1)

  /** One visited cell: a known label keeps its id, a new one takes
      `nextID`, which then moves on. Also returns the id written to the
      result grid. */
  function Visit(s: Scan, cell: string): (Scan, nat)
  {
    if cell in s.ids then (s, s.ids[cell])
    else (Scan(s.keys + [cell], s.ids[cell := s.nextId], s.nextId + 1), s.nextId)
  }

  /** The inner loop of `encoder` over one row. */
  function EncodeRow(s: Scan, row: seq<string>): (Scan, seq<nat>)
  {
    if |row| == 0 then (s, [])
    else
      var (s1, ids) := EncodeRow(s, row[..|row| - 1]);
      var (s2, id) := Visit(s1, row[|row| - 1]);
      (s2, ids + [id])
  }

  /** The outer loop of `encoder`: all rows, top to bottom. */
  function EncodeRows(g: Grid<string>): (Scan, Grid<nat>)
  {
    if |g| == 0 then (Initial, [])
    else
      var (s1, rows) := EncodeRows(g[..|g| - 1]);
      var (s2, row) := EncodeRow(s1, g[|g| - 1]);
      (s2, rows + [row])
  }

  /** The inverse table, filled by walking the labels in insertion order. */
  function BuildDecode(keys: seq<string>, ids: map<string, nat>): map<nat, string>
    requires forall l :: l in keys ==> l in ids
  {
    if |keys| == 0 then map[]
    else
      var k := keys[|keys| - 1];
      BuildDecode(keys[..|keys| - 1], ids)[ids[k] := k]
  }

  /** What `encoder` returns: the id grid, both tables and whether the blank
      label `""` occurs. */
  datatype Encoding = Encoding(grid: Grid<nat>, encodeMap: map<string, nat>,
                               decodeMap: map<nat, string>, hasBlank: bool)

  /** Every cell of `g` is a key of `m`: what the `!` of `m.get(item)!`
      takes for granted. */
  predicate Covered<A, B>(g: Grid<A>, m: map<A, B>) {
    forall i, j :: 0 <= i < |g| && 0 <= j < |g[i]| ==> g[i][j] in m
  }

  /** `grid.map(row => row.map(item => m.get(item)!))`, shared by
      `encoderWithMap` and `decoder`. */
  function Lookup<A, B>(g: Grid<A>, m: map<A, B>): (r: Grid<B>)
    requires Covered(g, m)
    ensures SameShape(r, g)
    ensures forall i, j :: 0 <= i < |g| && 0 <= j < |g[i]| ==> r[i][j] == m[g[i][j]]
  {
    seq(|g|, i requires 0 <= i < |g| =>
      seq(|g[i]|, j requires 0 <= j < |g[i]| => m[g[i][j]]))
  }

  /** No two keys of `m` map to the same value. */
  predicate Injective<A, B(==)>(m: map<A, B>) {
    forall x, y :: x in m && y in m && m[x] == m[y] ==> x == y
  }

  /** Looking up through a one-to-one table loses nothing: grids with the
      same lookup are the same grid. */
  lemma LookupInjective<A, B>(g: Grid<A>, h: Grid<A>, m: map<A, B>)
    requires Covered(g, m) && Covered(h, m) && Injective(m)
    requires Lookup(g, m) == Lookup(h, m)
    ensures g == h
  {
    forall i, j | 0 <= i < |g| && 0 <= j < |g[i]|
      ensures g[i][j] == h[i][j]
    {
      assert Lookup(g, m)[i][j] == Lookup(h, m)[i][j];
    }
    GridExt(g, h);
  }

  /** `encoderWithMap` (lines 26-28): each label replaced by its id. */
  function EncodeWithMap(h: Grid<string>, encodeMap: map<string, nat>): (r: Grid<nat>)
    requires Covered(h, encodeMap)
    ensures SameShape(r, h)
    ensures forall i, j :: 0 <= i < |h| && 0 <= j < |h[i]| ==> r[i][j] == encodeMap[h[i][j]]
  {
    Lookup(h, encodeMap)
  }

  /** `decoder` (lines 30-32): each id replaced by its label. */
  function Decode(grid: Grid<nat>, decodeMap: map<nat, string>): (r: Grid<string>)
    requires Covered(grid, decodeMap)
    ensures SameShape(r, grid)
    ensures forall i, j :: 0 <= i < |grid| && 0 <= j < |grid[i]| ==> r[i][j] == decodeMap[grid[i][j]]
  {
    Lookup(grid, decodeMap)
  }

  /** `m'` keeps every entry of `m`. */
  ghost predicate Extends(m: map<string, nat>, m': map<string, nat>) {
    forall l :: l in m ==> l in m' && m'[l] == m[l]
  }

  /** Ids are 1 .. |ids|, handed out in `keys` order. */
  ghost predicate Numbered(s: Scan) {
    && s.nextId == |s.keys| + 1
    && s.nextId == |s.ids| + 1
    && (forall l :: l in s.ids <==> l in s.keys)
    && (forall t :: 0 <= t < |s.keys| ==> s.keys[t] in s.ids && s.ids[s.keys[t]] == t + 1)
    && (forall l :: l in s.ids ==> 1 <= s.ids[l] < s.nextId)
  }

  /** A label met for the first time at position `b` gets a larger id than
      the label at every earlier position. */
  ghost predicate FirstSeenOrder(ids: map<string, nat>, c: seq<string>)
    requires forall l :: l in c ==> l in ids
  {
    forall a, b :: 0 <= a < b < |c| && c[b] !in c[..b] ==> ids[c[a]] < ids[c[b]]
  }

  /** What the scan state holds after visiting the cells `c`. */
  ghost predicate Assigned(s: Scan, c: seq<string>) {
    && Numbered(s)
    && (forall l :: l in s.ids <==> l in c)
    && FirstSeenOrder(s.ids, c)
  }

  lemma VisitNumbered(s: Scan, cell: string)
    requires Numbered(s)
    ensures Numbered(Visit(s, cell).0)
    ensures Visit(s, cell).1 == Visit(s, cell).0.ids[cell]
    ensures Extends(s.ids, Visit(s, cell).0.ids)
  {
    if cell !in s.ids {
      var s' := Visit(s, cell).0;
      assert forall l :: l in s'.keys <==> l in s.keys || l == cell;
    }
  }

  lemma VisitFirstSeen(s: Scan, c: seq<string>, cell: string)
    requires Assigned(s, c)
    ensures forall l :: l in c + [cell] ==> l in Visit(s, cell).0.ids
    ensures FirstSeenOrder(Visit(s, cell).0.ids, c + [cell])
  {
    var s' := Visit(s, cell).0;
    var c' := c + [cell];
    assert forall l :: l in c' <==> l in c || l == cell;
    forall a, b | 0 <= a < b < |c'| && c'[b] !in c'[..b]
      ensures s'.ids[c'[a]] < s'.ids[c'[b]]
    {
      assert c'[a] == c[a];
      assert c[a] in s.ids;
      if b < |c| {
        assert c'[..b] == c[..b];
        assert c'[b] == c[b];
      } else {
        assert c'[..b] == c;
        assert cell !in s.ids;
      }
    }
  }

  lemma VisitKeeps(s: Scan, c: seq<string>, cell: string)
    requires Assigned(s, c)
    ensures Assigned(Visit(s, cell).0, c + [cell])
  {
    VisitNumbered(s, cell);
    VisitFirstSeen(s, c, cell);
    var s' := Visit(s, cell).0;
    assert forall l :: l in c + [cell] <==> l in c || l == cell;
  }

  /** The scan state after visiting the cells `c` in order. */
  function ScanCells(c: seq<string>): Scan
  {
    if |c| == 0 then Initial else Visit(ScanCells(c[..|c| - 1]), c[|c| - 1]).0
  }

  lemma {:induction false} ScanAssigned(c: seq<string>)
    ensures Assigned(ScanCells(c), c)
  {
    if |c| > 0 {
      ScanAssigned(c[..|c| - 1]);
      VisitKeeps(ScanCells(c[..|c| - 1]), c[..|c| - 1], c[|c| - 1]);
      assert c[..|c| - 1] + [c[|c| - 1]] == c;
    }
  }

  /** Scanning a row continues the scan of the cells before it. */
  lemma {:induction false} EncodeRowScan(c: seq<string>, row: seq<string>)
    ensures EncodeRow(ScanCells(c), row).0 == ScanCells(c + row)
  {
    if |row| == 0 {
      assert c + row == c;
    } else {
      var front := row[..|row| - 1];
      EncodeRowScan(c, front);
      assert (c + row)[..|c + row| - 1] == c + front;
    }
  }

  /** The ids written for a row are the ids its labels end up with. */
  lemma {:induction false} EncodeRowIds(s: Scan, row: seq<string>)
    ensures |EncodeRow(s, row).1| == |row|
    ensures forall j :: 0 <= j < |row| ==>
              row[j] in EncodeRow(s, row).0.ids && EncodeRow(s, row).1[j] == EncodeRow(s, row).0.ids[row[j]]
    ensures Extends(s.ids, EncodeRow(s, row).0.ids)
  {
    if |row| > 0 {
      var front := row[..|row| - 1];
      EncodeRowIds(s, front);
      var s1 := EncodeRow(s, front).0;
      var ids := EncodeRow(s, front).1;
      var s2 := Visit(s1, row[|row| - 1]).0;
      var id := Visit(s1, row[|row| - 1]).1;
      assert EncodeRow(s, row) == (s2, ids + [id]);
      forall j | 0 <= j < |front|
        ensures row[j] in s2.ids && (ids + [id])[j] == s2.ids[row[j]]
      {
        assert row[j] == front[j];
      }
    }
  }

  lemma {:induction false} EncodeRowsKeeps(g: Grid<string>)
    ensures EncodeRows(g).0 == ScanCells(Flatten(g))
    ensures SameShape(EncodeRows(g).1, g)
    ensures forall i, j :: 0 <= i < |g| && 0 <= j < |g[i]| ==>
              g[i][j] in EncodeRows(g).0.ids && EncodeRows(g).1[i][j] == EncodeRows(g).0.ids[g[i][j]]
  {
    if |g| > 0 {
      var front := g[..|g| - 1];
      var last := g[|g| - 1];
      EncodeRowsKeeps(front);
      var s1 := EncodeRows(front).0;
      var rows := EncodeRows(front).1;
      EncodeRowScan(Flatten(front), last);
      EncodeRowIds(s1, last);
      var s2 := EncodeRow(s1, last).0;
      var row := EncodeRow(s1, last).1;
      assert EncodeRows(g) == (s2, rows + [row]);
      forall i, j | 0 <= i < |front| && 0 <= j < |g[i]|
        ensures g[i][j] in s2.ids && rows[i][j] == s2.ids[g[i][j]]
      {
        assert g[i] == front[i];
      }
    }
  }

  lemma {:induction false} BuildDecodeTable(keys: seq<string>, ids: map<string, nat>)
    requires forall t :: 0 <= t < |keys| ==> keys[t] in ids && ids[keys[t]] == t + 1
    ensures forall id :: id in BuildDecode(keys, ids) <==> 1 <= id <= |keys|
    ensures forall t :: 0 <= t < |keys| ==> BuildDecode(keys, ids)[t + 1] == keys[t]
  {
    if |keys| > 0 {
      BuildDecodeTable(keys[..|keys| - 1], ids);
    }
  }

  /** The tables of a numbered scan state: ids are 1 .. k without repeats,
      and the table built from `keys` inverts them. */
  lemma TableFacts(s: Scan)
    requires Numbered(s)
    ensures forall l :: l in s.ids ==> 1 <= s.ids[l] <= |s.ids|
    ensures forall l, l' :: l in s.ids && l' in s.ids && s.ids[l] == s.ids[l'] ==> l == l'
    ensures var d := BuildDecode(s.keys, s.ids);
      && (forall id :: id in d <==> 1 <= id <= |s.ids|)
      && (forall l :: l in s.ids ==> d[s.ids[l]] == l)
      && (forall id :: id in d ==> d[id] in s.ids && s.ids[d[id]] == id)
  {
    BuildDecodeTable(s.keys, s.ids);
    var d := BuildDecode(s.keys, s.ids);
    forall l | l in s.ids
      ensures d[s.ids[l]] == l
    {
      var t :| 0 <= t < |s.keys| && s.keys[t] == l;
    }
    forall l, l' | l in s.ids && l' in s.ids && s.ids[l] == s.ids[l']
      ensures l == l'
    {
      var t :| 0 <= t < |s.keys| && s.keys[t] == l;
      var t' :| 0 <= t' < |s.keys| && s.keys[t'] == l';
    }
    forall id | id in d
      ensures d[id] in s.ids && s.ids[d[id]] == id
    {
      var t := id - 1;
      assert d[t + 1] == s.keys[t];
    }
  }

  /** `encoder` (lines 1-24). */
  function Encode(g: Grid<string>): (e: Encoding)
    requires Rectangular(g)
    ensures SameShape(e.grid, g)
    // every label of g, and nothing else, is numbered ...
    ensures forall l :: l in e.encodeMap <==> l in Flatten(g)
    // ... with an id in 1 .. k, k the number of distinct labels, so 0 is unused ...
    ensures forall l :: l in e.encodeMap ==> 1 <= e.encodeMap[l] <= |e.encodeMap|
    // ... no two labels share an id ...
    ensures forall l, l' :: l in e.encodeMap && l' in e.encodeMap && e.encodeMap[l] == e.encodeMap[l'] ==> l == l'
    // ... and ids grow in first-seen row-major order
    ensures FirstSeenOrder(e.encodeMap, Flatten(g))
    ensures forall i, j :: 0 <= i < |g| && 0 <= j < |g[i]| ==>
              g[i][j] in e.encodeMap && e.grid[i][j] == e.encodeMap[g[i][j]]
    // decodeMap is the exact inverse of encodeMap
    ensures forall id :: id in e.decodeMap <==> 1 <= id <= |e.encodeMap|
    ensures forall l :: l in e.encodeMap ==> e.decodeMap[e.encodeMap[l]] == l
    ensures forall id :: id in e.decodeMap ==> e.decodeMap[id] in e.encodeMap && e.encodeMap[e.decodeMap[id]] == id
    ensures e.hasBlank <==> "" in Flatten(g)
  {
    EncodeRowsKeeps(g);
    ScanAssigned(Flatten(g));
    var s := EncodeRows(g).0;
    TableFacts(s);
    Encoding(EncodeRows(g).1, s.ids, BuildDecode(s.keys, s.ids), "" in s.ids)
  }

  /** Every label of `g` is numbered, and its id occurs in the id grid. */
  lemma LabelIdOccurs(g: Grid<string>, l: string)
    requires Rectangular(g) && l in Flatten(g)
    ensures var e := Encode(g);
      l in e.encodeMap && e.encodeMap[l] in Flatten(e.grid)
  {
    var e := Encode(g);
    FlattenMembership(g, l);
    var p :| InBounds(g, p) && At(g, p) == l;
    AtInFlatten(e.grid, p);
  }

  /** Every value of a renamed grid is the new name of one of its cells. */
  lemma LookupSource<A, B>(g: Grid<A>, m: map<A, B>, v: B) returns (l: A)
    requires Covered(g, m) && v in Flatten(Lookup(g, m))
    ensures l in Flatten(g) && l in m && m[l] == v
  {
    var r := Lookup(g, m);
    FlattenMembership(r, v);
    var p :| InBounds(r, p) && At(r, p) == v;
    l := At(g, p);
    AtInFlatten(g, p);
  }

  /** A grid whose labels all occur in `g` is numbered by the table built for
      `g`, using only ids that occur in the id grid of `g`. */
  lemma EncodeOther(g: Grid<string>, h: Grid<string>)
    requires Rectangular(g)
    requires forall l :: l in Flatten(h) ==> l in Flatten(g)
    ensures var e := Encode(g);
      && Covered(h, e.encodeMap)
      && forall v :: v in Flatten(EncodeWithMap(h, e.encodeMap)) ==> v in Flatten(e.grid)
  {
    var e := Encode(g);
    forall i, j | 0 <= i < |h| && 0 <= j < |h[i]|
      ensures h[i][j] in e.encodeMap
    {
      AtInFlatten(h, Pos(i, j));
    }
    forall v | v in Flatten(EncodeWithMap(h, e.encodeMap))
      ensures v in Flatten(e.grid)
    {
      var l := LookupSource(h, e.encodeMap, v);
      LabelIdOccurs(g, l);
    }
  }

  /** `encoderWithMap(g, encodeMap)` reproduces the grid `encoder` built for
      `g` (lines 9, 12, 27). */
  lemma EncodeWithMapAgrees(g: Grid<string>)
    requires Rectangular(g)
    ensures var e := Encode(g);
      (forall i, j :: 0 <= i < |g| && 0 <= j < |g[i]| ==> g[i][j] in e.encodeMap)
      && EncodeWithMap(g, e.encodeMap) == e.grid
  {
    var e := Encode(g);
    GridExt(EncodeWithMap(g, e.encodeMap), e.grid);
  }

  /** Decoding a grid numbered with the table `encoder` built for `g` gives
      back its labels, for any grid `h` whose labels all occur in `g`. */
  lemma DecodeEncodeWithMap(g: Grid<string>, h: Grid<string>)
    requires Rectangular(g)
    requires forall l :: l in Flatten(h) ==> l in Flatten(g)
    ensures var e := Encode(g);
      && (forall i, j :: 0 <= i < |h| && 0 <= j < |h[i]| ==> h[i][j] in e.encodeMap)
      && var k := EncodeWithMap(h, e.encodeMap);
      && (forall i, j :: 0 <= i < |k| && 0 <= j < |k[i]| ==> k[i][j] in e.decodeMap)
      && Decode(k, e.decodeMap) == h
  {
    var e := Encode(g);
    forall i, j | 0 <= i < |h| && 0 <= j < |h[i]|
      ensures h[i][j] in e.encodeMap
    {
      AtInFlatten(h, Pos(i, j));
    }
    var k := EncodeWithMap(h, e.encodeMap);
    GridExt(Decode(k, e.decodeMap), h);
  }

  /** decoder(encoder(g).grid, decodeMap) == g (lines 18-32). */
  lemma DecodeEncode(g: Grid<string>)
    requires Rectangular(g)
    ensures var e := Encode(g);
      && (forall i, j :: 0 <= i < |e.grid| && 0 <= j < |e.grid[i]| ==> e.grid[i][j] in e.decodeMap)
      && Decode(e.grid, e.decodeMap) == g
  {
    EncodeWithMapAgrees(g);
    DecodeEncodeWithMap(g, g);
  }

  /** Renaming the cells commutes with exchanging two of them. */
  lemma LookupSwap<A, B>(g: Grid<A>, m: map<A, B>, a: Pos, c: Pos)
    requires forall i, j :: 0 <= i < |g| && 0 <= j < |g[i]| ==> g[i][j] in m
    requires InBounds(g, a) && InBounds(g, c)
    ensures var h := Swap(g, a, c);
      && (forall i, j :: 0 <= i < |h| && 0 <= j < |h[i]| ==> h[i][j] in m)
      && Lookup(h, m) == Swap(Lookup(g, m), a, c)
  {
    var h := Swap(g, a, c);
    forall i, j | 0 <= i < |h| && 0 <= j < |h[i]|
      ensures h[i][j] in m
    {
      assert InBounds(g, Pos(i, j));
    }
    GridExt(Lookup(h, m), Swap(Lookup(g, m), a, c));
  }
}

=== FILE: feasibility.dfy ===
/**
  The feasibility check `mayConvertible` of `src/AstarSolver.tsx`: count
  the labels of both grids and demand, for every label of the target grid,
  exactly the same count in the source grid. Labels found only in the
  source grid are not looked at.
 */
module Feasibility {
  import opened Grids

  /** Label counts, built one cell at a time as
      `m.set(item, (m.get(item) || 0) + 1)` does. */
  function Tally(cells: seq<string>): (m: map<string, nat>)
    ensures forall l :: l in m <==> l in cells
    ensures forall l :: l in m ==> m[l] == multiset(cells)[l]
  {
    if |cells| == 0 then map[]
    else
      var front := cells[..|cells| - 1];
      var l := cells[|cells| - 1];
      assert cells == front + [l];
      var m := Tally(front);
      m[l := (if l in m then m[l] else 0) + 1]
  }

  /** How often `l` occurs in `g`. */
  function Count(g: Grid<string>, l: string): nat {
    multiset(Flatten(g))[l]
  }

  /** The loop of lines 41-45 over the counts of the target grid. */
  predicate CountsAgree(countA: map<string, nat>, countB: map<string, nat>) {
    forall l | l in countB :: l in countA && countA[l] == countB[l]
  }

  lemma CountsAgreeMeaning(a: Grid<string>, b: Grid<string>)
    ensures CountsAgree(Tally(Flatten(a)), Tally(Flatten(b)))
        <==> forall l :: Count(b, l) > 0 ==> Count(a, l) == Count(b, l)
  {
    var countA, countB := Tally(Flatten(a)), Tally(Flatten(b));
    if CountsAgree(countA, countB) {
      forall l | Count(b, l) > 0
        ensures Count(a, l) == Count(b, l)
      {
        assert l in multiset(Flatten(b));
        assert l in countB;
      }
    } else {
      var l :| l in countB && !(l in countA && countA[l] == countB[l]);
      assert Count(b, l) > 0;
      if l !in countA {
        assert Count(a, l) == 0;
      }
    }
  }

  /** `mayConvertible(a, b)`: every label occurring in `b` occurs in `a`
      exactly as often. */
  function MayConvertible(a: Grid<string>, b: Grid<string>): (r: bool)
    ensures r <==> forall l :: Count(b, l) > 0 ==> Count(a, l) == Count(b, l)
  {
    CountsAgreeMeaning(a, b);
    CountsAgree(Tally(Flatten(a)), Tally(Flatten(b)))
  }

  /** Every grid may be converted into itself. */
  lemma MayConvertibleReflexive(a: Grid<string>)
    ensures MayConvertible(a, a)
  {
  }

  /** The check is one-sided: a label present only in the first grid is
      ignored, so swapping the arguments can change the answer. */
  lemma MayConvertibleNotSymmetric()
    ensures MayConvertible([["A", "B"]], [["A"]])
    ensures !MayConvertible([["A"]], [["A", "B"]])
  {
    var ab: Grid<string> := [["A", "B"]];
    var a: Grid<string> := [["A"]];
    assert Flatten(ab) == ["A", "B"] by {
      assert ab[..0] == [];
    }
    assert Flatten(a) == ["A"] by {
      assert a[..0] == [];
    }
    assert Count(ab, "B") == 1 && Count(a, "B") == 0;
  }

  /** Every label of the target grid is a label of the source grid. */
  lemma MayConvertibleLabels(a: Grid<string>, b: Grid<string>)
    requires MayConvertible(a, b)
    ensures forall l :: l in Flatten(b) ==> l in Flatten(a)
  {
    forall l | l in Flatten(b)
      ensures l in Flatten(a)
    {
      assert Count(b, l) > 0;
    }
  }

  /** When both grids have the same number of cells the one-sided check is
      a full multiset equality: the target is a rearrangement of the source. */
  lemma MayConvertibleSameSize(a: Grid<string>, b: Grid<string>)
    requires MayConvertible(a, b)
    requires |Flatten(a)| == |Flatten(b)|
    ensures multiset(Flatten(a)) == multiset(Flatten(b))
  {
    var ma, mb := multiset(Flatten(a)), multiset(Flatten(b));
    forall l
      ensures mb[l] <= ma[l]
    {
      if mb[l] > 0 {
        assert Count(b, l) > 0;
      }
    }
    assert mb <= ma;
    assert ma * mb == mb;
    assert |ma - mb| == 0;
    assert ma - mb == multiset{};
    forall l
      ensures ma[l] == mb[l]
    {
      assert (ma - mb)[l] == 0;
    }
  }
}

=== FILE: grids.dfy ===
/**
  Grids as the solver sees them: rows of cells, read in row-major order.
  Both the label grids (`Grid<string>`) and the id grids (`Grid<nat>`) of
  the solver are instances of this one type.
 */
module Grids {

  type Grid<T> = seq<seq<T>>

  /** A cell coordinate: `row` indexes the outer sequence, `col` the row. */
  datatype Pos = Pos(row: nat, col: nat)

  /** The width the solver reads off row 0 (`grid[0].length`). */
  function Width<T>(g: Grid<T>): nat {
    if |g| == 0 then 0 else |g[0]|
  }

  predicate Rectangular<T>(g: Grid<T>) {
    forall i :: 0 <= i < |g| ==> |g[i]| == Width(g)
  }

  /** Non-empty, rectangular, with non-empty rows: the grids the solver is
      written for. */
  predicate WellFormed<T>(g: Grid<T>) {
    |g| > 0 && Width(g) > 0 && Rectangular(g)
  }

  predicate SameShape<T, U>(p: Grid<T>, q: Grid<U>) {
    |p| == |q| && forall i :: 0 <= i < |p| ==> |p[i]| == |q[i]|
  }

  /** Two grids of the same shape that agree on every cell are equal. */
  lemma GridExt<T>(p: Grid<T>, q: Grid<T>)
    requires SameShape(p, q)
    requires forall i, j :: 0 <= i < |p| && 0 <= j < |p[i]| ==> p[i][j] == q[i][j]
    ensures p == q
  {
    forall i | 0 <= i < |p|
      ensures p[i] == q[i]
    {
    }
  }

  function Abs(x: int): nat {
    if x < 0 then -x else x
  }

  /** Manhattan distance `Math.abs(x - i) + Math.abs(y - j)`. */
  function Dist(p: Pos, q: Pos): nat {
    Abs(p.row - q.row) + Abs(p.col - q.col)
  }

  lemma DistZero(p: Pos, q: Pos)
    ensures Dist(p, q) == 0 <==> p == q
  {
  }

  predicate InBounds<T>(g: Grid<T>, p: Pos) {
    p.row < |g| && p.col < |g[p.row]|
  }

  function At<T>(g: Grid<T>, p: Pos): T
    requires InBounds(g, p)
  {
    g[p.row][p.col]
  }

  /** `g` with the cell at `p` overwritten by `v`. */
  function Set<T>(g: Grid<T>, p: Pos, v: T): (r: Grid<T>)
    requires InBounds(g, p)
    ensures SameShape(r, g)
    ensures At(r, p) == v
    ensures forall q :: InBounds(g, q) && q != p ==> At(r, q) == At(g, q)
  {
    g[p.row := g[p.row][p.col := v]]
  }

  /** `g` with the contents of the cells `a` and `c` exchanged. */
  function Swap<T>(g: Grid<T>, a: Pos, c: Pos): (r: Grid<T>)
    requires InBounds(g, a) && InBounds(g, c)
    ensures SameShape(r, g)
    ensures At(r, a) == At(g, c) && At(r, c) == At(g, a)
    ensures forall q :: InBounds(g, q) && q != a && q != c ==> At(r, q) == At(g, q)
  {
    Set(Set(g, a, At(g, c)), c, At(g, a))
  }

  /** The cells of `g` in row-major order (`grid.flat()`). */
  function Flatten<T>(g: Grid<T>): seq<T>
  {
    if |g| == 0 then [] else Flatten(g[..|g| - 1]) + g[|g| - 1]
  }

  /** A value is among the flattened cells exactly when some cell holds it. */
  lemma {:induction false} FlattenMembership<T>(g: Grid<T>, v: T)
    ensures v in Flatten(g) <==> exists p :: InBounds(g, p) && At(g, p) == v
  {
    if |g| > 0 {
      var front := g[..|g| - 1];
      var last := g[|g| - 1];
      FlattenMembership(front, v);
      assert Flatten(g) == Flatten(front) + last;
      if v in Flatten(front) {
        var p :| InBounds(front, p) && At(front, p) == v;
        assert InBounds(g, p) && At(g, p) == v;
      } else if v in last {
        var j :| 0 <= j < |last| && last[j] == v;
        assert InBounds(g, Pos(|g| - 1, j)) && At(g, Pos(|g| - 1, j)) == v;
      }
      if p :| InBounds(g, p) && At(g, p) == v {
        if p.row < |g| - 1 {
          assert InBounds(front, p) && At(front, p) == v;
        } else {
          assert last[p.col] == v;
        }
      }
    }
  }

  /** The value at an in-bounds cell is among the flattened cells. */
  lemma AtInFlatten<T>(g: Grid<T>, p: Pos)
    requires InBounds(g, p)
    ensures At(g, p) in Flatten(g)
  {
    FlattenMembership(g, At(g, p));
  }

  /** Overwriting one cell replaces one copy of its old value by the new one
      in the multiset of cells. */
  lemma {:induction false} SetCells<T>(g: Grid<T>, p: Pos, v: T)
    requires InBounds(g, p)
    ensures multiset(Flatten(Set(g, p, v)))
         == multiset(Flatten(g)) - multiset{At(g, p)} + multiset{v}
  {
    var n := |g| - 1;
    var r := Set(g, p, v);
    assert Flatten(r) == Flatten(r[..n]) + r[n];
    assert Flatten(g) == Flatten(g[..n]) + g[n];
    if p.row == n {
      assert r[..n] == g[..n];
      assert r[n] == g[n][p.col := v];
      ReplaceInPart(multiset(g[n]), multiset(Flatten(g[..n])), At(g, p), v);
    } else {
      assert r[..n] == Set(g[..n], p, v);
      assert r[n] == g[n];
      SetCells(g[..n], p, v);
      assert InBounds(g[..n], p) && At(g[..n], p) == At(g, p);
      AtInFlatten(g[..n], p);
      ReplaceInPart(multiset(Flatten(g[..n])), multiset(g[n]), At(g, p), v);
    }
  }

  /** Replacing a copy of `x` inside one part of a sum replaces it in the sum. */
  lemma ReplaceInPart<T>(a: multiset<T>, b: multiset<T>, x: T, v: T)
    requires x in a
    ensures a - multiset{x} + multiset{v} + b == a + b - multiset{x} + multiset{v}
    ensures b + (a - multiset{x} + multiset{v}) == b + a - multiset{x} + multiset{v}
  {
  }

  /** Exchanging two cells leaves the multiset of cells unchanged. */
  lemma SwapCells<T>(g: Grid<T>, a: Pos, c: Pos)
    requires InBounds(g, a) && InBounds(g, c)
    ensures multiset(Flatten(Swap(g, a, c))) == multiset(Flatten(g))
  {
    var ga, gc := At(g, a), At(g, c);
    var h := Set(g, a, gc);
    SetCells(g, a, gc);
    SetCells(h, c, ga);
    AtInFlatten(g, a);
    ReplaceBack(multiset(Flatten(g)), ga, gc);
  }

  /** Replacing one copy of `x` by `y` and then one copy of `y` by `x`
      restores the multiset. */
  lemma ReplaceBack<T>(m: multiset<T>, x: T, y: T)
    requires x in m
    ensures m - multiset{x} + multiset{y} - multiset{y} + multiset{x} == m
  {
    assert m - multiset{x} + multiset{y} - multiset{y} == m - multiset{x};
  }

  /** Same shape and the same cells, counted with multiplicity. */
  predicate Perm<T(==)>(p: Grid<T>, q: Grid<T>) {
    SameShape(p, q) && multiset(Flatten(p)) == multiset(Flatten(q))
  }

  /** Rearranged grids hold the same values. */
  lemma PermValues<T>(p: Grid<T>, q: Grid<T>)
    requires Perm(p, q)
    ensures forall v :: v in Flatten(p) <==> v in Flatten(q)
  {
    assert forall v :: v in Flatten(p) <==> v in multiset(Flatten(p));
    assert forall v :: v in Flatten(q) <==> v in multiset(Flatten(q));
  }

  function RowOf(i: nat, n: nat): (ps: seq<Pos>)
    ensures forall p :: p in ps <==> p.row == i && p.col < n
  {
    var ps := seq(n, j requires 0 <= j < n => Pos(i, j));
    assert forall p: Pos :: p.row == i && p.col < n ==> ps[p.col] == p;
    ps
  }

  /** All coordinates of an `m` by `n` grid, in the order of the nested
      `for i … for j …` loops. */
  function RowMajor(m: nat, n: nat): (ps: seq<Pos>)
    ensures forall p :: p in ps <==> p.row < m && p.col < n
  {
    if m == 0 then [] else RowMajor(m - 1, n) + RowOf(m - 1, n)
  }

  /** The coordinates among `ps` whose cell holds `v`, in the order of `ps`. */
  function Filter<T(==)>(g: Grid<T>, ps: seq<Pos>, v: T): (r: seq<Pos>)
    requires forall p :: p in ps ==> InBounds(g, p)
    ensures forall p :: p in r <==> p in ps && At(g, p) == v
  {
    if |ps| == 0 then []
    else
      var r := Filter(g, ps[..|ps| - 1], v);
      var p := ps[|ps| - 1];
      assert forall q :: q in ps <==> q in ps[..|ps| - 1] || q == p;
      if At(g, p) == v then r + [p] else r
  }

  /** Every cell of a rectangular grid that holds `v`, in row-major order. */
  function Occurrences<T(==)>(g: Grid<T>, v: T): (r: seq<Pos>)
    requires Rectangular(g)
    ensures forall p :: p in r <==> InBounds(g, p) && At(g, p) == v
  {
    Filter(g, RowMajor(|g|, Width(g)), v)
  }
}

=== FILE: heuristic.dfy ===
/**
  The search heuristic `hCost` of `src/AstarSolver.tsx`: for every cell of
  the goal grid, the Manhattan distance from that cell to the nearest cell
  of the candidate grid holding the same id, summed over the goal grid.
 */
module Heuristic {
  import opened Grids
  import Seqs

  /** `mapping` of lines 51-58: every id to the list of its positions,
      extended one visited position at a time. */
  function Mapping(a: Grid<nat>, ps: seq<Pos>): map<nat, seq<Pos>>
    requires forall p :: p in ps ==> InBounds(a, p)
  {
    if |ps| == 0 then map[]
    else
      var m := Mapping(a, ps[..|ps| - 1]);
      var p := ps[|ps| - 1];
      var v := At(a, p);
      m[v := (if v in m then m[v] else []) + [p]]
  }

  /** The list kept for an id is exactly the visited positions holding it,
      in visiting order. */
  lemma {:induction false} MappingIsFilter(a: Grid<nat>, ps: seq<Pos>)
    requires forall p :: p in ps ==> InBounds(a, p)
    ensures forall v :: v in Mapping(a, ps) <==> Filter(a, ps, v) != []
    ensures forall v :: v in Mapping(a, ps) ==> Mapping(a, ps)[v] == Filter(a, ps, v)
  {
    if |ps| > 0 {
      var front := ps[..|ps| - 1];
      assert forall p :: p in front ==> p in ps;
      MappingIsFilter(a, front);
    }
  }

  /** `mapping` for a rectangular candidate grid, scanned in row-major order. */
  function PositionMap(a: Grid<nat>): (m: map<nat, seq<Pos>>)
    requires Rectangular(a)
    ensures forall v :: v in m <==> v in Flatten(a)
    ensures forall v :: v in m ==> m[v] == Occurrences(a, v) && |m[v]| > 0
  {
    var ps := RowMajor(|a|, Width(a));
    MappingIsFilter(a, ps);
    var m := Mapping(a, ps);
    forall v
      ensures v in m <==> v in Flatten(a)
    {
      FlattenMembership(a, v);
      if v in Flatten(a) {
        var q :| InBounds(a, q) && At(a, q) == v;
        assert q in Occurrences(a, v);
      }
      if v in m {
        var q := Occurrences(a, v)[0];
        assert q in Occurrences(a, v);
      }
    }
    m
  }

  function Distances(cands: seq<Pos>, target: Pos): (ds: seq<int>)
    ensures |ds| == |cands|
    ensures forall k :: 0 <= k < |cands| ==> ds[k] == Dist(cands[k], target)
  {
    seq(|cands|, k requires 0 <= k < |cands| => Dist(cands[k], target))
  }

  /** `candidates.reduce(…, candidates[0])` of lines 63-67: the first
      candidate at minimal distance from `target`. */
  function BestMatch(cands: seq<Pos>, target: Pos): (best: Pos)
    requires |cands| > 0
    ensures best in cands
    ensures forall c :: c in cands ==> Dist(best, target) <= Dist(c, target)
    ensures exists k ::
      && 0 <= k < |cands| && cands[k] == best
      && forall i :: 0 <= i < k ==> Dist(best, target) < Dist(cands[i], target)
  {
    var ds := Distances(cands, target);
    var k := Seqs.FirstMinIndex(ds);
    assert forall c :: c in cands ==> exists i :: 0 <= i < |cands| && cands[i] == c;
    assert forall i :: 0 <= i < k ==> Dist(cands[k], target) < Dist(cands[i], target);
    cands[k]
  }

  /** Every goal id occurs in the candidate grid, both grids rectangular:
      what `mapping.get(b[i][j])!` relies on. */
  predicate Defined(a: Grid<nat>, b: Grid<nat>) {
    Rectangular(a) && Rectangular(b) && forall v :: v in Flatten(b) ==> v in Flatten(a)
  }

  /** The term added for goal cell `p` (line 68). */
  function Term(m: map<nat, seq<Pos>>, b: Grid<nat>, p: Pos): nat
    requires InBounds(b, p) && At(b, p) in m && |m[At(b, p)]| > 0
  {
    Dist(BestMatch(m[At(b, p)], p), p)
  }

  predicate TermsDefined(m: map<nat, seq<Pos>>, b: Grid<nat>, ps: seq<Pos>) {
    forall p :: p in ps ==> InBounds(b, p) && At(b, p) in m && |m[At(b, p)]| > 0
  }

  /** `totalCost` accumulated over the goal cells `ps`. */
  function SumTerms(m: map<nat, seq<Pos>>, b: Grid<nat>, ps: seq<Pos>): nat
    requires TermsDefined(m, b, ps)
  {
    if |ps| == 0 then 0
    else SumTerms(m, b, ps[..|ps| - 1]) + Term(m, b, ps[|ps| - 1])
  }

  lemma GoalTermsDefined(a: Grid<nat>, b: Grid<nat>)
    requires Defined(a, b)
    ensures TermsDefined(PositionMap(a), b, RowMajor(|b|, Width(b)))
  {
    forall p | p in RowMajor(|b|, Width(b))
      ensures InBounds(b, p) && At(b, p) in PositionMap(a)
    {
      AtInFlatten(b, p);
    }
  }

  /** `hCost(a, b)` (lines 49-72). */
  function HCost(a: Grid<nat>, b: Grid<nat>): nat
    requires Defined(a, b)
  {
    GoalTermsDefined(a, b);
    SumTerms(PositionMap(a), b, RowMajor(|b|, Width(b)))
  }

  /** `d` is the least distance from `p` to a cell of `a` holding `v`. */
  ghost predicate IsMinDist(a: Grid<nat>, v: nat, p: Pos, d: nat) {
    && (exists q :: InBounds(a, q) && At(a, q) == v && Dist(q, p) == d)
    && (forall q :: InBounds(a, q) && At(a, q) == v ==> d <= Dist(q, p))
  }

  /** Each goal cell contributes the distance to the nearest occurrence of
      its id in the candidate grid: at most the distance to any occurrence,
      and attained by one. */
  lemma TermIsMinDist(a: Grid<nat>, b: Grid<nat>, p: Pos)
    requires Defined(a, b)
    requires p.row < |b| && p.col < Width(b)
    ensures InBounds(b, p)
    ensures At(b, p) in PositionMap(a) && |PositionMap(a)[At(b, p)]| > 0
    ensures IsMinDist(a, At(b, p), p, Term(PositionMap(a), b, p))
  {
    AtInFlatten(b, p);
    var m := PositionMap(a);
    var best := BestMatch(m[At(b, p)], p);
    assert InBounds(a, best) && At(a, best) == At(b, p);
    forall q | InBounds(a, q) && At(a, q) == At(b, p)
      ensures Term(m, b, p) <= Dist(q, p)
    {
      assert q in Occurrences(a, At(b, p));
    }
  }

  /** The least distance is unique. */
  lemma MinDistUnique(a: Grid<nat>, v: nat, p: Pos, d: nat, e: nat)
    requires IsMinDist(a, v, p, d) && IsMinDist(a, v, p, e)
    ensures d == e
  {
    var q :| InBounds(a, q) && At(a, q) == v && Dist(q, p) == d;
    var r :| InBounds(a, r) && At(a, r) == v && Dist(r, p) == e;
    assert e <= Dist(q, p) && d <= Dist(r, p);
  }

  /** Reference definition: the distance from goal cell `p` to the nearest
      cell of `a` holding the id the goal has at `p`. */
  ghost function MinDist(a: Grid<nat>, b: Grid<nat>, p: Pos): (d: nat)
    requires Defined(a, b)
    requires p.row < |b| && p.col < Width(b)
    ensures InBounds(b, p) && IsMinDist(a, At(b, p), p, d)
  {
    TermIsMinDist(a, b, p);
    var d :| IsMinDist(a, At(b, p), p, d); d
  }

  /** Reference definition: the nearest-occurrence distances summed over
      the goal cells `ps`. */
  ghost function MinDistSum(a: Grid<nat>, b: Grid<nat>, ps: seq<Pos>): nat
    requires Defined(a, b)
    requires forall p :: p in ps ==> p.row < |b| && p.col < Width(b)
  {
    if |ps| == 0 then 0
    else MinDistSum(a, b, ps[..|ps| - 1]) + MinDist(a, b, ps[|ps| - 1])
  }

  lemma {:induction false} SumTermsMinDist(a: Grid<nat>, b: Grid<nat>, ps: seq<Pos>)
    requires Defined(a, b)
    requires forall p :: p in ps ==> p.row < |b| && p.col < Width(b)
    requires TermsDefined(PositionMap(a), b, ps)
    ensures SumTerms(PositionMap(a), b, ps) == MinDistSum(a, b, ps)
  {
    if |ps| > 0 {
      var p := ps[|ps| - 1];
      SumTermsMinDist(a, b, ps[..|ps| - 1]);
      TermIsMinDist(a, b, p);
      MinDistUnique(a, At(b, p), p, Term(PositionMap(a), b, p), MinDist(a, b, p));
    }
  }

  /** `hCost(a, b)` is the sum, over every goal cell, of the distance from
      that cell to the nearest cell of `a` holding the same id. */
  lemma HCostIsMinDistSum(a: Grid<nat>, b: Grid<nat>)
    requires Defined(a, b)
    ensures HCost(a, b) == MinDistSum(a, b, RowMajor(|b|, Width(b)))
  {
    GoalTermsDefined(a, b);
    SumTermsMinDist(a, b, RowMajor(|b|, Width(b)));
  }

  lemma {:induction false} SumTermsZero(m: map<nat, seq<Pos>>, b: Grid<nat>, ps: seq<Pos>)
    requires TermsDefined(m, b, ps)
    ensures SumTerms(m, b, ps) == 0 <==> forall p :: p in ps ==> Term(m, b, p) == 0
  {
    if |ps| > 0 {
      var front := ps[..|ps| - 1];
      assert forall p :: p in ps <==> p in front || p == ps[|ps| - 1];
      SumTermsZero(m, b, front);
    }
  }

  /** The heuristic of the goal against itself is zero. */
  lemma HCostAtGoal(b: Grid<nat>)
    requires Rectangular(b)
    ensures Defined(b, b) && HCost(b, b) == 0
  {
    GoalTermsDefined(b, b);
    var m := PositionMap(b);
    var ps := RowMajor(|b|, Width(b));
    SumTermsZero(m, b, ps);
    forall p | p in ps
      ensures Term(m, b, p) == 0
    {
      TermIsMinDist(b, b, p);
      DistZero(p, p);
    }
  }

  /** A goal cell whose term is zero holds the same id in the candidate. */
  lemma ZeroTermAgrees(a: Grid<nat>, b: Grid<nat>, p: Pos)
    requires Defined(a, b) && SameShape(a, b)
    requires TermsDefined(PositionMap(a), b, RowMajor(|b|, Width(b)))
    requires p in RowMajor(|b|, Width(b)) && Term(PositionMap(a), b, p) == 0
    ensures a[p.row][p.col] == b[p.row][p.col]
  {
    TermIsMinDist(a, b, p);
    var q :| InBounds(a, q) && At(a, q) == At(b, p) && Dist(q, p) == 0;
    DistZero(q, p);
  }

  /** Zero terms at every goal cell make the grids equal. */
  lemma ZeroTermsAgree(a: Grid<nat>, b: Grid<nat>)
    requires Defined(a, b) && SameShape(a, b)
    requires TermsDefined(PositionMap(a), b, RowMajor(|b|, Width(b)))
    requires forall p :: p in RowMajor(|b|, Width(b)) ==> Term(PositionMap(a), b, p) == 0
    ensures a == b
  {
    forall i, j | 0 <= i < |a| && 0 <= j < |a[i]|
      ensures a[i][j] == b[i][j]
    {
      var p := Pos(i, j);
      assert p in RowMajor(|b|, Width(b));
      ZeroTermAgrees(a, b, p);
    }
    GridExt(a, b);
  }

  /** A zero heuristic on grids of one shape means every cell agrees. */
  lemma HCostZeroAtGoalOnly(a: Grid<nat>, b: Grid<nat>)
    requires Defined(a, b) && SameShape(a, b)
    requires HCost(a, b) == 0
    ensures a == b
  {
    GoalTermsDefined(a, b);
    SumTermsZero(PositionMap(a), b, RowMajor(|b|, Width(b)));
    ZeroTermsAgree(a, b);
  }

  /** On grids of the same shape the heuristic is zero exactly at the goal. */
  lemma HCostZeroIff(a: Grid<nat>, b: Grid<nat>)
    requires Defined(a, b)
    requires SameShape(a, b)
    ensures HCost(a, b) == 0 <==> a == b
  {
    if HCost(a, b) == 0 {
      HCostZeroAtGoalOnly(a, b);
    }
    if a == b {
      HCostAtGoal(b);
    }
  }

  /** A goal id missing from the candidate grid is the one case `hCost`
      cannot handle (the `!` of line 62). The search only scores grids that
      rearrange the start, against a goal whose ids all occur in the start,
      and such a grid never meets that case. */
  lemma PermDefined(x: Grid<nat>, start: Grid<nat>, goal: Grid<nat>)
    requires Rectangular(x) && Rectangular(goal) && Perm(x, start)
    requires forall v :: v in Flatten(goal) ==> v in Flatten(start)
    ensures Defined(x, goal)
  {
    PermValues(x, start);
  }
}

=== FILE: neighbours.dfy ===
/**
  The neighbour generator `obtainNextState` of `src/AstarSolver.tsx`: every
  cell holding the blank id is swapped, in turn, with each of its in-bounds
  orthogonal neighbours (right, up, left, down), and the resulting grids are
  collected without repeats in the order they were first produced.
 */
module Neighbours {
  import opened Grids
  import Seqs

  /** Row and column offsets of lines 87-88: right, up, left, down. */
  const DX: seq<int> := [0, -1, 0, 1]
  const DY: seq<int> := [1, 0, -1, 0]

  /** The neighbour of `b` in direction `d` lies on the grid (line 105). */
  predicate OnGrid(p: Grid<nat>, b: Pos, d: nat)
    requires d < 4
  {
    var nx := b.row + DX[d];
    var ny := b.col + DY[d];
    0 <= nx < |p| && 0 <= ny < Width(p)
  }

  function Target(b: Pos, d: nat): Pos
    requires d < 4 && b.row + DX[d] >= 0 && b.col + DY[d] >= 0
  {
    Pos(b.row + DX[d], b.col + DY[d])
  }

  /** The grid produced for blank `b` and direction `d`, if any (lines 102-109:
      swap, record, swap back). */
  function Try(p: Grid<nat>, b: Pos, d: nat): seq<Grid<nat>>
    requires Rectangular(p) && InBounds(p, b) && d < 4
  {
    if OnGrid(p, b, d) then [Swap(p, b, Target(b, d))] else []
  }

  /** The four directions of line 101, in order. */
  function Moves(p: Grid<nat>, b: Pos): seq<Grid<nat>>
    requires Rectangular(p) && InBounds(p, b)
  {
    Try(p, b, 0) + Try(p, b, 1) + Try(p, b, 2) + Try(p, b, 3)
  }

  /** Every grid produced, with repeats, in production order (lines 100-111). */
  function Produced(p: Grid<nat>, blanks: seq<Pos>): seq<Grid<nat>>
    requires Rectangular(p)
    requires forall b :: b in blanks ==> InBounds(p, b)
  {
    if |blanks| == 0 then []
    else Produced(p, blanks[..|blanks| - 1]) + Moves(p, blanks[|blanks| - 1])
  }

  /** One blank slide: `q` is `p` with a blank cell exchanged with an
      orthogonally adjacent cell. */
  ghost predicate Step<T>(p: Grid<T>, q: Grid<T>, blank: T) {
    exists a: Pos, c: Pos ::
      InBounds(p, a) && InBounds(p, c) && At(p, a) == blank && Dist(a, c) == 1
      && q == Swap(p, a, c)
  }

  /** The direction a grid produced for the blank at `b` came from. */
  lemma MoveDirection(p: Grid<nat>, b: Pos, q: Grid<nat>) returns (d: nat)
    requires Rectangular(p) && InBounds(p, b) && q in Moves(p, b)
    ensures d < 4 && OnGrid(p, b, d) && q == Swap(p, b, Target(b, d))
  {
    var t0, t1, t2, t3 := Try(p, b, 0), Try(p, b, 1), Try(p, b, 2), Try(p, b, 3);
    assert Moves(p, b) == t0 + t1 + t2 + t3;
    if q in t0 {
      d := 0;
    } else if q in t1 {
      d := 1;
    } else if q in t2 {
      d := 2;
    } else {
      d := 3;
    }
  }

  /** Every in-bounds direction produces its swap. */
  lemma MoveProduced(p: Grid<nat>, b: Pos, d: nat)
    requires Rectangular(p) && InBounds(p, b) && d < 4 && OnGrid(p, b, d)
    ensures Swap(p, b, Target(b, d)) in Moves(p, b)
  {
    var t0, t1, t2, t3 := Try(p, b, 0), Try(p, b, 1), Try(p, b, 2), Try(p, b, 3);
    assert Moves(p, b) == t0 + t1 + t2 + t3;
    assert Swap(p, b, Target(b, d)) in Try(p, b, d);
  }

  /** The blank whose moves produced a grid. */
  lemma {:induction false} ProducedSource(p: Grid<nat>, blanks: seq<Pos>, q: Grid<nat>) returns (k: nat)
    requires Rectangular(p)
    requires forall b :: b in blanks ==> InBounds(p, b)
    requires q in Produced(p, blanks)
    ensures k < |blanks| && q in Moves(p, blanks[k])
  {
    var n := |blanks| - 1;
    var front := blanks[..n];
    assert forall b :: b in front ==> b in blanks;
    assert Produced(p, blanks) == Produced(p, front) + Moves(p, blanks[n]);
    if q in Produced(p, front) {
      k := ProducedSource(p, front, q);
      assert front[k] == blanks[k];
    } else {
      k := n;
    }
  }

  /** The moves of every blank are among the produced grids. */
  lemma {:induction false} ProducedIncludes(p: Grid<nat>, blanks: seq<Pos>, k: nat, q: Grid<nat>)
    requires Rectangular(p)
    requires forall b :: b in blanks ==> InBounds(p, b)
    requires k < |blanks| && q in Moves(p, blanks[k])
    ensures q in Produced(p, blanks)
  {
    var n := |blanks| - 1;
    var front := blanks[..n];
    assert forall b :: b in front ==> b in blanks;
    assert Produced(p, blanks) == Produced(p, front) + Moves(p, blanks[n]);
    if k < n {
      assert front[k] == blanks[k];
      ProducedIncludes(p, front, k, q);
    } else {
      assert k == n;
    }
  }

  /** At most four grids per blank. */
  lemma {:induction false} ProducedLength(p: Grid<nat>, blanks: seq<Pos>)
    requires Rectangular(p)
    requires forall b :: b in blanks ==> InBounds(p, b)
    ensures |Produced(p, blanks)| <= 4 * |blanks|
  {
    if |blanks| > 0 {
      var front := blanks[..|blanks| - 1];
      assert forall b :: b in front ==> b in blanks;
      ProducedLength(p, front);
    }
  }

  /** The grids of one slide from `p`: swap partners are in bounds, the
      swapped cell is a blank, and the partner is adjacent. */
  lemma TargetAdjacent(p: Grid<nat>, b: Pos, d: nat)
    requires Rectangular(p) && InBounds(p, b) && d < 4 && OnGrid(p, b, d)
    ensures InBounds(p, Target(b, d)) && Dist(b, Target(b, d)) == 1
  {
  }

  /** Every adjacent cell is the target of one of the four directions. */
  lemma AdjacentTarget(p: Grid<nat>, a: Pos, c: Pos) returns (d: nat)
    requires Rectangular(p) && InBounds(p, a) && InBounds(p, c) && Dist(a, c) == 1
    ensures d < 4 && OnGrid(p, a, d) && Target(a, d) == c
  {
    if c.row == a.row && c.col == a.col + 1 {
      d := 0;
    } else if c.row + 1 == a.row {
      d := 1;
    } else if c.row == a.row {
      d := 2;
    } else {
      d := 3;
    }
  }

  /** Each grid produced for the blank at `b` is one slide of that blank,
      keeps the shape and rearranges the cells. */
  lemma MoveFacts(p: Grid<nat>, b: Pos, q: Grid<nat>)
    requires Rectangular(p) && InBounds(p, b) && q in Moves(p, b)
    ensures Perm(q, p) && Rectangular(q)
    ensures Step(p, q, At(p, b))
  {
    var d := MoveDirection(p, b, q);
    var c := Target(b, d);
    TargetAdjacent(p, b, d);
    SwapCells(p, b, c);
  }

  /** Every slide of a blank at `b` is among the grids produced for `b`. */
  lemma StepInMoves(p: Grid<nat>, b: Pos, c: Pos)
    requires Rectangular(p) && InBounds(p, b) && InBounds(p, c) && Dist(b, c) == 1
    ensures Swap(p, b, c) in Moves(p, b)
  {
    var d := AdjacentTarget(p, b, c);
    MoveProduced(p, b, d);
  }

  /** The produced grids, as the blank positions' moves. */
  lemma ProducedFacts(p: Grid<nat>, blank: nat, q: Grid<nat>)
    requires Rectangular(p)
    requires q in Produced(p, Occurrences(p, blank))
    ensures Perm(q, p) && Rectangular(q) && Step(p, q, blank)
  {
    var blanks := Occurrences(p, blank);
    var k := ProducedSource(p, blanks, q);
    assert blanks[k] in blanks;
    MoveFacts(p, blanks[k], q);
  }

  /** `obtainNextState(p, blankID)` (lines 82-114), on the grid rather than
      its text. */
  function NextStates(p: Grid<nat>, blank: nat): (r: seq<Grid<nat>>)
    requires Rectangular(p)
    ensures Seqs.Distinct(r)
  {
    Seqs.Dedup(Produced(p, Occurrences(p, blank)))
  }

  /** At most four neighbours per blank cell. */
  lemma NextStatesBound(p: Grid<nat>, blank: nat)
    requires Rectangular(p)
    ensures |NextStates(p, blank)| <= 4 * |Occurrences(p, blank)|
  {
    ProducedLength(p, Occurrences(p, blank));
  }

  /** Every neighbour keeps the shape and rearranges the cells. */
  lemma NextStatesRearrange(p: Grid<nat>, blank: nat, q: Grid<nat>)
    requires Rectangular(p) && q in NextStates(p, blank)
    ensures Perm(q, p) && Rectangular(q)
  {
    ProducedFacts(p, blank, q);
  }

  /** Every slide of a blank cell is generated. */
  lemma SlideGenerated(p: Grid<nat>, blank: nat, a: Pos, c: Pos)
    requires Rectangular(p)
    requires InBounds(p, a) && InBounds(p, c) && At(p, a) == blank && Dist(a, c) == 1
    ensures Swap(p, a, c) in NextStates(p, blank)
  {
    var blanks := Occurrences(p, blank);
    assert a in blanks;
    var k :| 0 <= k < |blanks| && blanks[k] == a;
    StepInMoves(p, a, c);
    ProducedIncludes(p, blanks, k, Swap(p, a, c));
  }

  /** The generator returns exactly the grids one blank slide away. */
  lemma NextStatesExact(p: Grid<nat>, blank: nat, q: Grid<nat>)
    requires Rectangular(p)
    ensures q in NextStates(p, blank) <==> Step(p, q, blank)
  {
    if q in NextStates(p, blank) {
      ProducedFacts(p, blank, q);
    }
    if Step(p, q, blank) {
      var a, c :| InBounds(p, a) && InBounds(p, c) && At(p, a) == blank && Dist(a, c) == 1
        && q == Swap(p, a, c);
      SlideGenerated(p, blank, a, c);
    }
  }

  /** Without a blank there is nothing to move. */
  lemma NoBlankNoMoves(p: Grid<nat>, blank: nat)
    requires Rectangular(p)
    requires blank !in Flatten(p)
    ensures NextStates(p, blank) == []
  {
    if Occurrences(p, blank) != [] {
      var b := Occurrences(p, blank)[0];
      assert b in Occurrences(p, blank);
      AtInFlatten(p, b);
    }
  }

  /** Two adjacent blanks make `p` one of its own neighbours: their swap
      changes nothing. */
  lemma AdjacentBlanksStay(p: Grid<nat>, blank: nat, a: Pos, c: Pos)
    requires Rectangular(p)
    requires InBounds(p, a) && InBounds(p, c) && Dist(a, c) == 1
    requires At(p, a) == blank && At(p, c) == blank
    ensures p in NextStates(p, blank)
  {
    GridExt(Swap(p, a, c), p);
    NextStatesExact(p, blank, p);
  }
}

=== FILE: seqs.dfy ===
/**
  Small sequence utilities shared by the solver model: the insertion-ordered
  de-duplication a JavaScript `Set` performs, the "first strict minimum" that
  `Array.prototype.reduce` with a `<` comparison selects, and reversal.
 */
module Seqs {

  /** No element occurs twice. */
  predicate Distinct<T(==)>(s: seq<T>) {
    forall i, j :: 0 <= i < j < |s| ==> s[i] != s[j]
  }

  /** Adding the elements of `s` one by one to an insertion-ordered set and
      reading it back: the first occurrence of every element, in order. */
  function Dedup<T(==,!new)>(s: seq<T>): (d: seq<T>)
    ensures Distinct(d)
    ensures forall x :: x in d <==> x in s
    ensures |d| <= |s|
  {
    if |s| == 0 then []
    else
      var d := Dedup(s[..|s| - 1]);
      var x := s[|s| - 1];
      assert forall y :: y in s <==> y in s[..|s| - 1] || y == x;
      if x in d then d else d + [x]
  }

  /** The index that `reduce((best, x) => key(x) < key(best) ? x : best)`
      ends on when run over a sequence whose keys are `xs`: a minimum, and
      the first one, since later equal keys never replace it. */
  function FirstMinIndex(xs: seq<int>): (k: nat)
    requires |xs| > 0
    ensures k < |xs|
    ensures forall i :: 0 <= i < |xs| ==> xs[k] <= xs[i]
    ensures forall i :: 0 <= i < k ==> xs[k] < xs[i]
  {
    if |xs| == 1 then 0
    else
      var k := FirstMinIndex(xs[..|xs| - 1]);
      if xs[|xs| - 1] < xs[k] then |xs| - 1 else k
  }

  /** Concatenation is associative. */
  lemma ConcatAssoc<T>(a: seq<T>, b: seq<T>, c: seq<T>)
    ensures a + b + c == a + (b + c)
  {
  }

  function Reverse<T>(s: seq<T>): (r: seq<T>)
    ensures |r| == |s|
    ensures forall i :: 0 <= i < |s| ==> r[i] == s[|s| - 1 - i]
  {
    if |s| == 0 then [] else Reverse(s[1..]) + [s[0]]
  }

  /** `Set.prototype.delete` on an insertion-ordered set: `x` leaves, the
      others keep their order. */
  function Remove<T(==,!new)>(s: seq<T>, x: T): (r: seq<T>)
    ensures forall y :: y in r <==> y in s && y != x
    ensures Distinct(s) ==> Distinct(r)
  {
    if |s| == 0 then []
    else
      var r := Remove(s[..|s| - 1], x);
      var y := s[|s| - 1];
      assert forall z :: z in s <==> z in s[..|s| - 1] || z == y;
      assert Distinct(s) ==> Distinct(s[..|s| - 1]) && y !in s[..|s| - 1];
      if y == x then r else r + [y]
  }

  /** Deleting an element that is absent changes nothing. */
  lemma {:induction false} RemoveAbsent<T(!new)>(s: seq<T>, x: T)
    requires x !in s
    ensures Remove(s, x) == s
  {
    if |s| > 0 {
      RemoveAbsent(s[..|s| - 1], x);
      assert s[..|s| - 1] + [s[|s| - 1]] == s;
    }
  }

  /** Deleting the element at position `k` of a repeat-free sequence cuts
      it out and keeps the others in order. */
  lemma {:induction false} RemoveAt<T(!new)>(s: seq<T>, k: nat)
    requires Distinct(s) && k < |s|
    ensures Remove(s, s[k]) == s[..k] + s[k + 1..]
  {
    var front := s[..|s| - 1];
    var y := s[|s| - 1];
    if k == |s| - 1 {
      assert s[k] !in front;
      RemoveAbsent(front, s[k]);
    } else {
      assert front[k] == s[k] && y != s[k];
      RemoveAt(front, k);
      assert front[..k] == s[..k];
      assert front[k + 1..] + [y] == s[k + 1..];
    }
  }
}

=== FILE: serializer.dfy ===
/**
  The state serialiser of `src/AstarSolver.tsx`: `stringify` writes an id
  grid as decimal numbers, cells joined by `,` and rows by `;`; `destring`
  splits the text back. Parsing is restricted to non-empty decimal digit
  strings; anything else is reported as `None`.
 */
module Serializer {
  import opened Grids

  datatype Option<T> = None | Some(value: T)

  predicate IsDigit(c: char) {
    '0' <= c <= '9'
  }

  /** A non-empty string of decimal digits. */
  predicate IsDigits(s: string) {
    |s| > 0 && forall k :: 0 <= k < |s| ==> IsDigit(s[k])
  }

  function DigitChar(d: nat): (c: char)
    requires d < 10
    ensures IsDigit(c)
  {
    ('0' as int + d) as char
  }

  function DigitValue(c: char): (d: nat)
    requires IsDigit(c)
    ensures d < 10
  {
    c as int - '0' as int
  }

  /** Plain decimal digits, the text JavaScript writes for the small ids
      the solver assigns (from 10^21 on it would switch to exponent form,
      which is not modelled). */
  function NatToString(n: nat): (s: string)
    ensures IsDigits(s)
  {
    if n < 10 then [DigitChar(n)] else NatToString(n / 10) + [DigitChar(n % 10)]
  }

  /** `Number(s)` on a decimal digit string. */
  function ParseNat(s: string): nat
    requires forall k :: 0 <= k < |s| ==> IsDigit(s[k])
  {
    if |s| == 0 then 0 else ParseNat(s[..|s| - 1]) * 10 + DigitValue(s[|s| - 1])
  }

  /** Reading back the decimal text of `n` gives `n`. */
  lemma {:induction false} ParseNatToString(n: nat)
    ensures ParseNat(NatToString(n)) == n
  {
    if n >= 10 {
      var s := NatToString(n);
      assert s[..|s| - 1] == NatToString(n / 10);
      ParseNatToString(n / 10);
    }
  }

  /** `parts.join(sep)`. */
  function Join(parts: seq<string>, sep: char): string
  {
    if |parts| == 0 then ""
    else if |parts| == 1 then parts[0]
    else parts[0] + [sep] + Join(parts[1..], sep)
  }

  /** `s.split(sep)`: always at least one part, none containing `sep`. */
  function Split(s: string, sep: char): (parts: seq<string>)
    ensures |parts| >= 1
    ensures forall k :: 0 <= k < |parts| ==> sep !in parts[k]
  {
    if |s| == 0 then [""]
    else
      var rest := Split(s[1..], sep);
      if s[0] == sep then [""] + rest
      else [[s[0]] + rest[0]] + rest[1..]
  }

  /** Joining the parts of a split gives back the text. */
  lemma {:induction false} SplitJoin(s: string, sep: char)
    ensures Join(Split(s, sep), sep) == s
  {
    if |s| > 0 {
      SplitJoin(s[1..], sep);
      var rest := Split(s[1..], sep);
      if s[0] == sep {
        assert ([""] + rest)[1..] == rest;
      } else {
        var parts := [[s[0]] + rest[0]] + rest[1..];
        if |rest| > 1 {
          assert parts[1..] == rest[1..];
          assert Join(rest, sep) == rest[0] + [sep] + Join(rest[1..], sep);
        }
      }
    }
  }

  /** Splitting a part that holds no separator, followed by the separator
      and more text, cuts exactly after that part. */
  lemma {:induction false} SplitPrefix(p: string, s: string, sep: char)
    requires sep !in p
    ensures Split(p + [sep] + s, sep) == [p] + Split(s, sep)
  {
    if |p| > 0 {
      SplitPrefix(p[1..], s, sep);
      assert (p + [sep] + s)[1..] == p[1..] + [sep] + s;
      assert [p[0]] + p[1..] == p;
    } else {
      assert p + [sep] + s == [sep] + s;
      assert ([sep] + s)[1..] == s;
    }
  }

  /** A text with no separator is one part. */
  lemma {:induction false} SplitNone(p: string, sep: char)
    requires sep !in p
    ensures Split(p, sep) == [p]
  {
    if |p| > 0 {
      SplitNone(p[1..], sep);
      assert [p[0]] + p[1..] == p;
    }
  }

  /** Splitting the join of separator-free parts gives back the parts. */
  lemma {:induction false} JoinSplit(parts: seq<string>, sep: char)
    requires |parts| >= 1
    requires forall k :: 0 <= k < |parts| ==> sep !in parts[k]
    ensures Split(Join(parts, sep), sep) == parts
  {
    if |parts| == 1 {
      SplitNone(parts[0], sep);
    } else {
      JoinSplit(parts[1..], sep);
      SplitPrefix(parts[0], Join(parts[1..], sep), sep);
      assert [parts[0]] + parts[1..] == parts;
    }
  }

  /** Every character of a join comes from a part or is the separator. */
  lemma {:induction false} JoinChars(parts: seq<string>, sep: char, c: char)
    requires c in Join(parts, sep)
    ensures c == sep || exists k :: 0 <= k < |parts| && c in parts[k]
  {
    if |parts| > 1 {
      var rest := Join(parts[1..], sep);
      if c in parts[0] {
      } else if c != sep {
        assert c in rest;
        JoinChars(parts[1..], sep, c);
        var k :| 0 <= k < |parts[1..]| && c in parts[1..][k];
        assert c in parts[k + 1];
      }
    }
  }

  function CellStrings(row: seq<nat>): (cells: seq<string>)
    ensures |cells| == |row|
    ensures forall j :: 0 <= j < |row| ==> cells[j] == NatToString(row[j])
  {
    seq(|row|, j requires 0 <= j < |row| => NatToString(row[j]))
  }

  /** `row.join(',')` */
  function RowString(row: seq<nat>): string {
    Join(CellStrings(row), ',')
  }

  function RowStrings(g: Grid<nat>): (rows: seq<string>)
    ensures |rows| == |g|
    ensures forall i :: 0 <= i < |g| ==> rows[i] == RowString(g[i])
  {
    seq(|g|, i requires 0 <= i < |g| => RowString(g[i]))
  }

  /** `stringify` (lines 74-76). */
  function Stringify(g: Grid<nat>): string {
    Join(RowStrings(g), ';')
  }

  /** `row.split(',').map(Number)` on digit strings. */
  function ParseCells(cells: seq<string>): Option<seq<nat>>
  {
    if |cells| == 0 then Some([])
    else if !IsDigits(cells[0]) then None
    else match ParseCells(cells[1..])
      case None => None
      case Some(rest) => Some([ParseNat(cells[0])] + rest)
  }

  function ParseRows(rows: seq<string>): Option<Grid<nat>>
  {
    if |rows| == 0 then Some([])
    else match ParseCells(Split(rows[0], ','))
      case None => None
      case Some(row) =>
        match ParseRows(rows[1..])
        case None => None
        case Some(rest) => Some([row] + rest)
  }

  /** `destring` (lines 78-80). */
  function Destring(s: string): Option<Grid<nat>> {
    ParseRows(Split(s, ';'))
  }

  lemma {:induction false} ParseCellStrings(row: seq<nat>)
    ensures ParseCells(CellStrings(row)) == Some(row)
  {
    if |row| > 0 {
      ParseCellStrings(row[1..]);
      assert CellStrings(row)[1..] == CellStrings(row[1..]);
      ParseNatToString(row[0]);
      assert [row[0]] + row[1..] == row;
    }
  }

  /** Digit strings contain neither separator. */
  lemma DigitsNoSeparator(s: string)
    requires IsDigits(s)
    ensures ',' !in s && ';' !in s
  {
  }

  /** The text of a row contains only digits and commas. */
  lemma RowStringChars(row: seq<nat>)
    ensures ';' !in RowString(row)
  {
    forall k | 0 <= k < |row|
      ensures ';' !in CellStrings(row)[k]
    {
      DigitsNoSeparator(NatToString(row[k]));
    }
    if ';' in RowString(row) {
      JoinChars(CellStrings(row), ',', ';');
    }
  }

  lemma {:induction false} ParseRowStrings(g: Grid<nat>)
    requires forall i :: 0 <= i < |g| ==> |g[i]| > 0
    ensures ParseRows(RowStrings(g)) == Some(g)
  {
    if |g| > 0 {
      ParseRowStrings(g[1..]);
      assert RowStrings(g)[1..] == RowStrings(g[1..]);
      forall j | 0 <= j < |g[0]|
        ensures ',' !in CellStrings(g[0])[j]
      {
        DigitsNoSeparator(NatToString(g[0][j]));
      }
      JoinSplit(CellStrings(g[0]), ',');
      ParseCellStrings(g[0]);
      assert [g[0]] + g[1..] == g;
    }
  }

  /** The text of a non-empty grid splits at `;` into one piece per row,
      the row's cells in decimal joined by `,`. */
  lemma StringifyRows(g: Grid<nat>)
    requires |g| > 0
    ensures Split(Stringify(g), ';') == RowStrings(g)
  {
    forall i | 0 <= i < |g|
      ensures ';' !in RowStrings(g)[i]
    {
      RowStringChars(g[i]);
    }
    JoinSplit(RowStrings(g), ';');
  }

  /** destring(stringify(g)) == g for a non-empty grid of non-empty rows. */
  lemma DestringStringify(g: Grid<nat>)
    requires |g| > 0
    requires forall i :: 0 <= i < |g| ==> |g[i]| > 0
    ensures Destring(Stringify(g)) == Some(g)
  {
    StringifyRows(g);
    ParseRowStrings(g);
  }

  /** Parsing the cells of a row succeeds iff every cell is a digit string,
      and then gives their values in order. */
  lemma {:induction false} ParseCellsSpec(cells: seq<string>)
    ensures ParseCells(cells).Some? <==> forall k :: 0 <= k < |cells| ==> IsDigits(cells[k])
    ensures ParseCells(cells).Some? ==>
      && |ParseCells(cells).value| == |cells|
      && forall k :: 0 <= k < |cells| ==> ParseCells(cells).value[k] == ParseNat(cells[k])
  {
    if |cells| > 0 {
      ParseCellsSpec(cells[1..]);
      if !IsDigits(cells[0]) {
        assert ParseCells(cells).None?;
      } else {
        assert forall k :: 1 <= k < |cells| ==> cells[k] == cells[1..][k - 1];
      }
    }
  }

  /** Parsing the rows succeeds iff every row parses, and then gives one
      row of values per row text. */
  lemma {:induction false} ParseRowsSpec(rows: seq<string>)
    ensures ParseRows(rows).Some? <==>
      forall i :: 0 <= i < |rows| ==> ParseCells(Split(rows[i], ',')).Some?
    ensures ParseRows(rows).Some? ==>
      && |ParseRows(rows).value| == |rows|
      && forall i :: 0 <= i < |rows| ==> ParseCells(Split(rows[i], ',')) == Some(ParseRows(rows).value[i])
  {
    if |rows| > 0 {
      ParseRowsSpec(rows[1..]);
      if ParseCells(Split(rows[0], ',')).Some? {
        assert forall i :: 1 <= i < |rows| ==> rows[i] == rows[1..][i - 1];
      }
    }
  }

  /** Every `,`-separated part of every `;`-separated piece of `s` is a
      digit string. */
  predicate AllDigitParts(s: string) {
    forall i, k :: 0 <= i < |Split(s, ';')| && 0 <= k < |Split(Split(s, ';')[i], ',')| ==>
      IsDigits(Split(Split(s, ';')[i], ',')[k])
  }

  /** `destring(s)` succeeds iff every part is a digit string; it then has
      one row per `;`-separated piece, one cell per `,`-separated part, and
      each cell is the value of its part. */
  lemma DestringCells(s: string)
    ensures Destring(s).Some? <==> AllDigitParts(s)
    ensures var rows := Split(s, ';');
      Destring(s).Some? ==>
        && |Destring(s).value| == |rows|
        && forall i :: 0 <= i < |rows| ==>
          && |Destring(s).value[i]| == |Split(rows[i], ',')|
          && forall k :: 0 <= k < |Split(rows[i], ',')| ==> Destring(s).value[i][k] == ParseNat(Split(rows[i], ',')[k])
  {
    var rows := Split(s, ';');
    ParseRowsSpec(rows);
    if Destring(s).Some? {
      var g := Destring(s).value;
      forall i, k | 0 <= i < |rows| && 0 <= k < |Split(rows[i], ',')|
        ensures IsDigits(Split(rows[i], ',')[k])
        ensures k < |g[i]| && g[i][k] == ParseNat(Split(rows[i], ',')[k])
      {
        ParseCellsSpec(Split(rows[i], ','));
      }
      forall i | 0 <= i < |rows|
        ensures |g[i]| == |Split(rows[i], ',')|
      {
        ParseCellsSpec(Split(rows[i], ','));
      }
    } else {
      var i :| 0 <= i < |rows| && ParseCells(Split(rows[i], ',')).None?;
      ParseCellsSpec(Split(rows[i], ','));
    }
  }

  /** Hence equal texts mean equal grids: the text is a faithful state key. */
  lemma StringifyInjective(g: Grid<nat>, h: Grid<nat>)
    requires |g| > 0 && forall i :: 0 <= i < |g| ==> |g[i]| > 0
    requires |h| > 0 && forall i :: 0 <= i < |h| ==> |h[i]| > 0
    ensures Stringify(g) == Stringify(h) <==> g == h
  {
    DestringStringify(g);
    DestringStringify(h);
  }
}

=== FILE: solver.dfy ===
/**
  The search `solver` of `src/AstarSolver.tsx`: check feasibility, number
  the labels, then run a best-first search over id grids from the input to
  the output, each step sliding a blank, and read the path back through the
  parent links.

  The search keys its tables by the text `stringify` writes; here they are
  keyed by the id grids themselves, which `Serializer.StringifyInjective`
  shows is the same thing for the non-empty grids the solver handles.
 */
module Solver {
  import opened Grids
  import Seqs
  import Codec
  import Feasibility
  import Heuristic
  import Neighbours

  /** What `solver` returns: one of the three error strings, or the path.
      `OutOfFuel` is the model's own outcome for a search cut short by the
      step bound `fuel`. */
  datatype Outcome =
    | Code1
    | Code2
    | Code3
    | Path(grids: seq<Grid<string>>)
    | OutOfFuel

  /** The search tables of lines 130-133: `open` in insertion order, the
      closed set, the cost so far `g` and the `parent` links. */
  datatype Search = Search(
    open: seq<Grid<nat>>,
    close: set<Grid<nat>>,
    g: map<Grid<nat>, nat>,
    parent: map<Grid<nat>, Grid<nat>>)

  /** Every open or closed grid has a cost, and every grid with a cost is
      open or closed. */
  predicate Keyed(s: Search) {
    && (forall x :: x in s.open ==> x in s.g)
    && (forall x :: x in s.close ==> x in s.g)
    && (forall x :: x in s.g ==> x in s.open || x in s.close)
  }

  /** The parent links form a tree rooted at `start` along which the cost
      strictly grows. */
  predicate Tree(s: Search, start: Grid<nat>) {
    && start in s.g && s.g[start] == 0 && start !in s.parent
    && (forall x :: x in s.g ==> x == start || x in s.parent)
    && (forall x :: x in s.parent ==> x in s.g && s.parent[x] in s.g && s.g[s.parent[x]] < s.g[x])
  }

  /** Every parent link is a move the neighbour generator produced. */
  predicate Edges(s: Search, blank: nat) {
    forall x :: x in s.parent ==>
      Rectangular(s.parent[x]) && x in Neighbours.NextStates(s.parent[x], blank)
  }

  /** Every grid the search has met is a rearrangement of `start`. */
  predicate Reached(s: Search, start: Grid<nat>) {
    forall x :: x in s.g ==> Perm(x, start) && Rectangular(x)
  }

  ghost predicate Valid(s: Search, start: Grid<nat>, blank: nat) {
    Seqs.Distinct(s.open) && Keyed(s) && Tree(s, start) && Edges(s, blank) && Reached(s, start)
  }

  /** The tables before the first iteration (lines 130-133). */
  function Initial(start: Grid<nat>): Search {
    Search([start], {}, map[start := 0], map[])
  }

  lemma InitialValid(start: Grid<nat>, blank: nat)
    requires Rectangular(start)
    ensures Valid(Initial(start), start, blank)
  {
  }

  /** `getF` (lines 136-138): the cost so far plus an estimate of what
      remains, which is never negative and is zero at the goal. */
  function F(s: Search, goal: Grid<nat>, x: Grid<nat>): (f: nat)
    requires x in s.g && Heuristic.Defined(x, goal)
    ensures f >= s.g[x]
    ensures x == goal ==> f == s.g[x]
  {
    Heuristic.HCostAtGoal(goal);
    s.g[x] + Heuristic.HCost(x, goal)
  }

  predicate Scored(s: Search, goal: Grid<nat>) {
    forall x :: x in s.open ==> x in s.g && Heuristic.Defined(x, goal)
  }

  /** The `reduce` of line 141: the first open grid of least `F`. */
  function BestIndex(s: Search, goal: Grid<nat>): (k: nat)
    requires |s.open| > 0 && Scored(s, goal)
    ensures k < |s.open|
  {
    Seqs.FirstMinIndex(Scores(s, goal))
  }

  /** The `F` value of every open grid, in `open`'s order. */
  function Scores(s: Search, goal: Grid<nat>): (fs: seq<int>)
    requires Scored(s, goal)
    ensures |fs| == |s.open|
  {
    seq(|s.open|, i requires 0 <= i < |s.open| => F(s, goal, s.open[i]))
  }

  /** The selected open grid has the least `F`, and no earlier open grid
      ties with it. */
  lemma BestIndexLeast(s: Search, goal: Grid<nat>)
    requires |s.open| > 0 && Scored(s, goal)
    ensures var k := BestIndex(s, goal);
      && (forall i :: 0 <= i < |s.open| ==> F(s, goal, s.open[k]) <= F(s, goal, s.open[i]))
      && (forall i :: 0 <= i < k ==> F(s, goal, s.open[k]) < F(s, goal, s.open[i]))
  {
    var fs := Scores(s, goal);
    assert forall i :: 0 <= i < |s.open| ==> fs[i] == F(s, goal, s.open[i]);
  }

  /** Lines 144-145: `p` leaves the open set and joins the closed set. */
  function Expand(s: Search, p: Grid<nat>): (r: Search)
    ensures forall x :: x in r.open <==> x in s.open && x != p
    ensures r.close == s.close + {p}
    ensures r.g == s.g && r.parent == s.parent
  {
    s.(open := Seqs.Remove(s.open, p), close := s.close + {p})
  }

  lemma ExpandValid(s: Search, start: Grid<nat>, blank: nat, p: Grid<nat>)
    requires Valid(s, start, blank) && p in s.open
    ensures Valid(Expand(s, p), start, blank) && p in Expand(s, p).close
  {
  }

  /** One pass of the loop body of lines 147-156 for the neighbour `q` of
      the expanded grid `p`. */
  function Relax(s: Search, p: Grid<nat>, q: Grid<nat>): (r: Search)
    requires Keyed(s) && p in s.g
    ensures r.close == s.close
    ensures if q in s.g && s.g[q] <= s.g[p] + 1
      then r.open == s.open && r.g == s.g && r.parent == s.parent
      else
        && r.g == s.g[q := s.g[p] + 1] && r.parent == s.parent[q := p]
        && r.open == if q in s.open then s.open else s.open + [q]
  {
    var tempG := s.g[p] + 1;
    if q in s.close && tempG >= s.g[q] then s
    else if q !in s.open || tempG < s.g[q] then
      Search(if q in s.open then s.open else s.open + [q], s.close,
             s.g[q := tempG], s.parent[q := p])
    else s
  }

  /** A cost is lowered only by re-parenting: the grids whose parent is the
      improved grid still cost more than it. */
  lemma RelaxTree(s: Search, start: Grid<nat>, p: Grid<nat>, q: Grid<nat>)
    requires Keyed(s) && Tree(s, start) && p in s.close
    ensures Tree(Relax(s, p, q), start)
  {
    var r := Relax(s, p, q);
    if r != s {
      assert q != start;
      assert q != p;
      forall x | x in r.parent
        ensures x in r.g && r.parent[x] in r.g && r.g[r.parent[x]] < r.g[x]
      {
        if x != q {
          assert r.parent[x] == s.parent[x];
        }
      }
    }
  }

  /** The new parent link of a relaxed neighbour is a generated move. */
  lemma RelaxEdges(s: Search, blank: nat, p: Grid<nat>, q: Grid<nat>)
    requires Keyed(s) && Edges(s, blank) && p in s.g
    requires Rectangular(p) && q in Neighbours.NextStates(p, blank)
    ensures Edges(Relax(s, p, q), blank)
  {
  }

  /** Relaxing keeps the open list free of repeats and every table entry
      accounted for. */
  lemma RelaxKeyed(s: Search, p: Grid<nat>, q: Grid<nat>)
    requires Seqs.Distinct(s.open) && Keyed(s) && p in s.g
    ensures Seqs.Distinct(Relax(s, p, q).open) && Keyed(Relax(s, p, q))
  {
    if q !in s.open {
      assert forall i :: 0 <= i < |s.open| ==> s.open[i] != q;
    }
  }

  /** A rearrangement of a rearrangement of `start` is one too. */
  lemma RelaxReached(s: Search, start: Grid<nat>, p: Grid<nat>, q: Grid<nat>)
    requires Keyed(s) && Reached(s, start) && p in s.g
    requires Perm(q, p) && Rectangular(q)
    ensures Reached(Relax(s, p, q), start)
  {
  }

  /** Relaxing a neighbour of an expanded grid keeps the tables valid. */
  lemma RelaxValid(s: Search, start: Grid<nat>, blank: nat, p: Grid<nat>, q: Grid<nat>)
    requires Valid(s, start, blank) && p in s.close
    requires Rectangular(p) && q in Neighbours.NextStates(p, blank)
    ensures Valid(Relax(s, p, q), start, blank) && p in Relax(s, p, q).close
  {
    RelaxKeyed(s, p, q);
    Neighbours.NextStatesRearrange(p, blank, q);
    RelaxReached(s, start, p, q);
    RelaxTree(s, start, p, q);
    RelaxEdges(s, blank, p, q);
  }

  /** One relaxation, in the terms of `RelaxAll` below. */
  lemma RelaxStep(s: Search, p: Grid<nat>, q: Grid<nat>)
    requires Keyed(s) && p in s.g
    ensures var r := Relax(s, p, q);
      && Keyed(r) && r.close == s.close && p in r.g && r.g[p] == s.g[p]
      && (forall x :: x in s.g ==> x in r.g && r.g[x] <= s.g[x])
      && q in r.g && r.g[q] <= s.g[p] + 1
      && (forall x :: x in s.open ==> x in r.open)
      && (forall x :: x in r.open && x !in s.open ==> x !in s.g || r.g[x] < s.g[x])
      && (forall x :: x in r.g && (x !in s.g || r.g[x] < s.g[x]) ==> x in r.open)
  {
  }

  /** The `for (const q of …)` loop of lines 147-156: relax each grid of
      `qs` in turn against the expanded grid `p`. */
  function RelaxAll(s: Search, p: Grid<nat>, qs: seq<Grid<nat>>): (r: Search)
    requires Keyed(s) && p in s.g
    ensures Keyed(r) && p in r.g
  {
    if |qs| == 0 then s
    else
      var m := RelaxAll(s, p, qs[..|qs| - 1]);
      RelaxStep(m, p, qs[|qs| - 1]);
      Relax(m, p, qs[|qs| - 1])
  }

  /** What the relaxation loop does to the tables: `close` and the cost of
      `p` stay, costs only drop, every relaxed grid ends at most one step
      dearer than `p`, nothing leaves `open`, and a grid joins `open` only
      when it is new or got cheaper, and then it does. */
  lemma {:induction false} RelaxAllFacts(s: Search, p: Grid<nat>, qs: seq<Grid<nat>>)
    requires Keyed(s) && p in s.g
    ensures var r := RelaxAll(s, p, qs);
      && r.close == s.close && r.g[p] == s.g[p]
      && (forall x :: x in s.g ==> x in r.g && r.g[x] <= s.g[x])
      && (forall q :: q in qs ==> q in r.g && r.g[q] <= s.g[p] + 1)
      && (forall x :: x in s.open ==> x in r.open)
      && (forall x :: x in r.open && x !in s.open ==> x !in s.g || r.g[x] < s.g[x])
      && (forall x :: x in r.g && (x !in s.g || r.g[x] < s.g[x]) ==> x in r.open)
  {
    if |qs| > 0 {
      var front := qs[..|qs| - 1];
      assert forall q :: q in qs <==> q in front || q == qs[|qs| - 1];
      RelaxAllFacts(s, p, front);
      RelaxStep(RelaxAll(s, p, front), p, qs[|qs| - 1]);
    }
  }

  /** Relaxing one more grid of the list extends the fold by one step. */
  lemma RelaxAllPrefix(s: Search, p: Grid<nat>, qs: seq<Grid<nat>>, i: nat)
    requires Keyed(s) && p in s.g && i < |qs|
    ensures RelaxAll(s, p, qs[..i + 1]) == Relax(RelaxAll(s, p, qs[..i]), p, qs[i])
  {
    assert qs[..i + 1][..i] == qs[..i];
  }

  /** Relaxing `q` from `p` changes the tables (the guards of lines
      149-151): `q` has no cost yet, or costs more than one step beyond
      `p`. */
  predicate Improves(s: Search, p: Grid<nat>, q: Grid<nat>) {
    q !in s.g || (p in s.g && s.g[q] > s.g[p] + 1)
  }

  /** The grids of `qs`, in order, that relaxing from `p` adds to `open`:
      those it improves that are not open yet. */
  function Joining(s: Search, p: Grid<nat>, qs: seq<Grid<nat>>): (js: seq<Grid<nat>>)
    ensures forall x :: x in js ==> x in qs
  {
    if |qs| == 0 then []
    else
      var q := qs[|qs| - 1];
      Joining(s, p, qs[..|qs| - 1]) + if Improves(s, p, q) && q !in s.open then [q] else []
  }

  /** The tables the relaxation loop leaves, for repeat-free neighbours:
      every improved grid gets the cost one step beyond `p` and `p` as
      parent, and every other cost and parent entry is unchanged. */
  ghost predicate TablesSettled(e: Search, r: Search, p: Grid<nat>, qs: seq<Grid<nat>>)
    requires p in e.g
  {
    && (forall x :: x in qs && Improves(e, p, x) ==>
          x in r.g && r.g[x] == e.g[p] + 1 && x in r.parent && r.parent[x] == p)
    && (forall x :: !(x in qs && Improves(e, p, x)) ==>
          && (x in r.g <==> x in e.g) && (x in e.g ==> r.g[x] == e.g[x])
          && (x in r.parent <==> x in e.parent) && (x in e.parent ==> r.parent[x] == e.parent[x]))
  }

  lemma {:induction false} RelaxAllTables(e: Search, p: Grid<nat>, qs: seq<Grid<nat>>)
    requires Keyed(e) && p in e.g && Seqs.Distinct(qs)
    ensures TablesSettled(e, RelaxAll(e, p, qs), p, qs)
  {
    if |qs| > 0 {
      var front := qs[..|qs| - 1];
      var q := qs[|qs| - 1];
      assert forall x :: x in qs <==> x in front || x == q;
      assert q !in front;
      RelaxAllTables(e, p, front);
      var m := RelaxAll(e, p, front);
      assert !Improves(e, p, p);
      assert m.g[p] == e.g[p];
      assert Improves(m, p, q) == Improves(e, p, q);
    }
  }

  /** One relaxation appends `q` to `open` exactly when it improves `q`
      and `q` is not open yet. */
  lemma RelaxOpen(m: Search, p: Grid<nat>, q: Grid<nat>)
    requires Keyed(m) && p in m.g
    ensures Relax(m, p, q).open == m.open + if Improves(m, p, q) && q !in m.open then [q] else []
  {
  }

  /** A grid `q` the earlier relaxations (of `front`) did not reach is
      improved and open just as at the start. */
  lemma Untouched(e: Search, m: Search, p: Grid<nat>, front: seq<Grid<nat>>, q: Grid<nat>)
    requires p in e.g && q !in front
    requires TablesSettled(e, m, p, front) && m.open == e.open + Joining(e, p, front)
    ensures Improves(m, p, q) == Improves(e, p, q)
    ensures q in m.open <==> q in e.open
  {
    assert !Improves(e, p, p);
  }

  /** The relaxation loop appends `Joining` to `open`, in order. */
  lemma {:induction false} RelaxAllOpen(e: Search, p: Grid<nat>, qs: seq<Grid<nat>>)
    requires Keyed(e) && p in e.g && Seqs.Distinct(qs)
    ensures RelaxAll(e, p, qs).open == e.open + Joining(e, p, qs)
  {
    if |qs| > 0 {
      var front := qs[..|qs| - 1];
      var q := qs[|qs| - 1];
      assert q !in front;
      RelaxAllOpen(e, p, front);
      RelaxAllTables(e, p, front);
      var m := RelaxAll(e, p, front);
      Untouched(e, m, p, front, q);
      RelaxOpen(m, p, q);
      var tail := if Improves(e, p, q) && q !in e.open then [q] else [];
      Seqs.ConcatAssoc(e.open, Joining(e, p, front), tail);
    }
  }

  /** Removing `p` from `open` does not change which neighbours join it:
      `p` itself never improves. */
  lemma {:induction false} JoiningExpand(s: Search, p: Grid<nat>, qs: seq<Grid<nat>>)
    requires p in s.g
    ensures Joining(Expand(s, p), p, qs) == Joining(s, p, qs)
  {
    if |qs| > 0 {
      JoiningExpand(s, p, qs[..|qs| - 1]);
    }
  }

  /** The exact result of expanding `p` with neighbour list `ns`: `p`
      leaves `open` and joins `close`, the grids of `Joining` are appended
      to `open` in order, and the cost and parent tables are as
      `TablesSettled` says. */
  ghost predicate Settled(s: Search, r: Search, p: Grid<nat>, ns: seq<Grid<nat>>) {
    && p in s.g
    && r.close == s.close + {p}
    && r.open == Seqs.Remove(s.open, p) + Joining(s, p, ns)
    && TablesSettled(s, r, p, ns)
  }

  /** What one expansion does to the tables (lines 144-156): exactly what
      `Settled` says for the generated neighbours of `p`. The remaining
      conjuncts follow from it and are kept for the proofs that use them:
      `p` keeps its cost, no cost rises, every neighbour ends costed at most
      one step beyond `p`, other open grids stay open, and a grid is open
      afterwards iff it was open before and is not `p`, or is new, or got
      cheaper. */
  ghost predicate Expanded(s: Search, r: Search, p: Grid<nat>, blank: nat) {
    && Rectangular(p) && Keyed(r) && p in s.g && p in r.g
    && Settled(s, r, p, Neighbours.NextStates(p, blank))
    && r.close == s.close + {p} && r.g[p] == s.g[p]
    && (forall x :: x in s.g ==> x in r.g && r.g[x] <= s.g[x])
    && (forall q :: q in Neighbours.NextStates(p, blank) ==> q in r.g && r.g[q] <= s.g[p] + 1)
    && (forall x :: x in s.open && x != p ==> x in r.open)
    && (forall x :: x in r.open ==> (x in s.open && x != p) || x !in s.g || r.g[x] < s.g[x])
    && (forall x :: x in r.g && (x !in s.g || r.g[x] < s.g[x]) ==> x in r.open)
  }

  /** Relaxing a list of generated neighbours keeps the tables valid. */
  lemma {:induction false} RelaxAllValid(s: Search, start: Grid<nat>, blank: nat, p: Grid<nat>, qs: seq<Grid<nat>>)
    requires Valid(s, start, blank) && p in s.close && Rectangular(p)
    requires forall q :: q in qs ==> q in Neighbours.NextStates(p, blank)
    ensures Valid(RelaxAll(s, p, qs), start, blank)
  {
    if |qs| > 0 {
      var front := qs[..|qs| - 1];
      assert forall q :: q in front ==> q in qs;
      RelaxAllValid(s, start, blank, p, front);
      RelaxAllFacts(s, p, front);
      RelaxValid(RelaxAll(s, p, front), start, blank, p, qs[|qs| - 1]);
    }
  }

  /** Each grid of `back` after the first is the parent of the one before. */
  ghost predicate Chain(s: Search, back: seq<Grid<nat>>) {
    forall k :: 0 <= k < |back| - 1 ==> back[k] in s.parent && s.parent[back[k]] == back[k + 1]
  }

  lemma ChainExtend(s: Search, back: seq<Grid<nat>>)
    requires |back| > 0 && Chain(s, back) && back[|back| - 1] in s.parent
    ensures Chain(s, back + [s.parent[back[|back| - 1]]])
  {
    var back' := back + [s.parent[back[|back| - 1]]];
    forall k | 0 <= k < |back'| - 1
      ensures back'[k] in s.parent && s.parent[back'[k]] == back'[k + 1]
    {
      assert back'[k] == back[k];
    }
  }

  /** Every parent link is a blank slide. */
  lemma EdgeStep(s: Search, blank: nat, x: Grid<nat>)
    requires Edges(s, blank) && x in s.parent
    ensures Neighbours.Step(s.parent[x], x, blank)
  {
    Neighbours.NextStatesExact(s.parent[x], blank, x);
  }

  /** Forwards along a path, each grid's parent is the grid before it. */
  ghost predicate Linked(s: Search, path: seq<Grid<nat>>) {
    forall k :: 0 < k < |path| ==> path[k] in s.parent && s.parent[path[k]] == path[k - 1]
  }

  /** A parent chain read backwards is a linked path. */
  lemma ReverseLinked(s: Search, back: seq<Grid<nat>>)
    requires Chain(s, back)
    ensures Linked(s, Seqs.Reverse(back))
  {
    var path := Seqs.Reverse(back);
    forall k | 0 < k < |path|
      ensures path[k] in s.parent && s.parent[path[k]] == path[k - 1]
    {
      var j := |back| - 1 - k;
      assert path[k] == back[j];
      assert path[k - 1] == back[j + 1];
    }
  }

  /** Lines 164-168: the parent links from `goal` back to `start`. */
  method TraceBack(s: Search, start: Grid<nat>, goal: Grid<nat>)
    returns (back: seq<Grid<nat>>)
    requires Tree(s, start) && goal in s.parent
    ensures |back| >= 2 && back[0] == goal && back[|back| - 1] == start
    ensures Chain(s, back)
    ensures forall k :: 0 <= k < |back| ==> back[k] in s.g
  {
    back := [goal];
    var iter := goal;
    while iter != start
      invariant iter in s.g && |back| >= 1
      invariant back[0] == goal && back[|back| - 1] == iter
      invariant forall k :: 0 <= k < |back| ==> back[k] in s.g
      invariant Chain(s, back)
      invariant iter == start ==> |back| >= 2
      decreases s.g[iter]
    {
      ChainExtend(s, back);
      iter := s.parent[iter];
      back := back + [iter];
    }
  }

  /** Lines 163-170: follow the parent links back from `goal` to `start`
      and reverse, giving a path from `start` to `goal` along parent
      links. */
  method Reconstruct(s: Search, start: Grid<nat>, goal: Grid<nat>)
    returns (path: seq<Grid<nat>>)
    requires Tree(s, start) && goal in s.parent
    ensures |path| >= 2 && path[0] == start && path[|path| - 1] == goal
    ensures Linked(s, path)
    ensures forall k :: 0 <= k < |path| ==> path[k] in s.g
  {
    var back := TraceBack(s, start, goal);
    ReverseLinked(s, back);
    path := Seqs.Reverse(back);
  }

  /** Along a linked path of a valid search every grid rearranges `start`
      and every grid is one blank slide from the next. */
  lemma LinkedSlides(s: Search, start: Grid<nat>, blank: nat, path: seq<Grid<nat>>)
    requires Edges(s, blank) && Reached(s, start) && Linked(s, path)
    requires forall k :: 0 <= k < |path| ==> path[k] in s.g
    ensures forall k :: 0 <= k < |path| ==> Perm(path[k], start)
    ensures forall k :: 0 <= k < |path| - 1 ==> Neighbours.Step(path[k], path[k + 1], blank)
  {
    forall k | 0 <= k < |path| - 1
      ensures Neighbours.Step(path[k], path[k + 1], blank)
    {
      assert path[k + 1] in s.parent && s.parent[path[k + 1]] == path[k];
      EdgeStep(s, blank, path[k + 1]);
    }
  }

  /** A rearrangement of a covered grid is covered. */
  lemma PermCovered<A, B>(x: Grid<A>, y: Grid<A>, m: map<A, B>)
    requires Perm(x, y) && Codec.Covered(y, m)
    ensures Codec.Covered(x, m)
  {
    PermValues(x, y);
    forall i, j | 0 <= i < |x| && 0 <= j < |x[i]|
      ensures x[i][j] in m
    {
      AtInFlatten(x, Pos(i, j));
      FlattenMembership(y, x[i][j]);
    }
  }

  lemma PathCovered<A, B>(path: seq<Grid<A>>, start: Grid<A>, m: map<A, B>)
    requires Codec.Covered(start, m) && forall k :: 0 <= k < |path| ==> Perm(path[k], start)
    ensures forall k :: 0 <= k < |path| ==> Codec.Covered(path[k], m)
  {
    forall k | 0 <= k < |path|
      ensures Codec.Covered(path[k], m)
    {
      PermCovered(path[k], start, m);
    }
  }

  /** A blank slide on ids is a blank slide on labels once the blank id is
      decoded as the empty label. */
  lemma DecodeStep(x: Grid<nat>, y: Grid<nat>, blank: nat, d: map<nat, string>)
    requires Neighbours.Step(x, y, blank) && Codec.Covered(x, d) && Codec.Covered(y, d)
    requires blank in d && d[blank] == ""
    ensures Neighbours.Step(Codec.Decode(x, d), Codec.Decode(y, d), "")
  {
    var a, c :| InBounds(x, a) && InBounds(x, c) && At(x, a) == blank && Dist(a, c) == 1
      && y == Swap(x, a, c);
    Codec.LookupSwap(x, d, a, c);
    var dx := Codec.Decode(x, d);
    assert InBounds(dx, a) && InBounds(dx, c) && At(dx, a) == "";
    assert Codec.Decode(y, d) == Swap(dx, a, c);
  }

  /** `listString.map(st => decoder(destring(st), decodeMap))` (line 172). */
  function DecodeAll(path: seq<Grid<nat>>, d: map<nat, string>): (grids: seq<Grid<string>>)
    requires forall k :: 0 <= k < |path| ==> Codec.Covered(path[k], d)
    ensures |grids| == |path|
    ensures forall k :: 0 <= k < |path| ==> grids[k] == Codec.Decode(path[k], d)
  {
    seq(|path|, k requires 0 <= k < |path| => Codec.Decode(path[k], d))
  }

  /** Decoding a two-grid path decodes each end. */
  lemma DecodePair(a: Grid<nat>, b: Grid<nat>, d: map<nat, string>)
    requires Codec.Covered(a, d) && Codec.Covered(b, d)
    ensures DecodeAll([a, b], d) == [Codec.Decode(a, d), Codec.Decode(b, d)]
  {
  }

  /** Decoding a path of blank slides on ids gives a path of blank slides
      on labels. */
  lemma DecodeAllSteps(path: seq<Grid<nat>>, d: map<nat, string>, blank: nat)
    requires forall k :: 0 <= k < |path| ==> Codec.Covered(path[k], d)
    requires blank in d && d[blank] == ""
    requires forall k :: 0 <= k < |path| - 1 ==> Neighbours.Step(path[k], path[k + 1], blank)
    ensures var grids := DecodeAll(path, d);
      forall k :: 0 <= k < |grids| - 1 ==> Neighbours.Step(grids[k], grids[k + 1], "")
  {
    var grids := DecodeAll(path, d);
    forall k | 0 <= k < |grids| - 1
      ensures Neighbours.Step(grids[k], grids[k + 1], "")
    {
      DecodeStep(path[k], path[k + 1], blank, d);
    }
  }

  /** A solution: at least two grids, from `input` to `output`, each one
      blank slide from the one before. */
  ghost predicate IsSolution(grids: seq<Grid<string>>, input: Grid<string>, output: Grid<string>) {
    && |grids| >= 2 && grids[0] == input && grids[|grids| - 1] == output
    && forall k :: 0 <= k < |grids| - 1 ==> Neighbours.Step(grids[k], grids[k + 1], "")
  }

  /** What lines 121-133 set up for the search: the numbered input and
      output, the blank id and the table to decode with. */
  datatype Setup = Setup(
    start: Grid<nat>, goal: Grid<nat>, blank: nat, decodeMap: map<nat, string>, hasBlank: bool)

  /** The search problem is the input problem, renamed: both ends decode
      back to the grids given, the blank id decodes to the empty label, no
      two ids decode to the same label, and the goal uses only ids found in
      the start. */
  ghost predicate Faithful(t: Setup, input: Grid<string>, output: Grid<string>) {
    && Rectangular(t.start) && Rectangular(t.goal)
    && (forall v :: v in Flatten(t.goal) ==> v in Flatten(t.start))
    && Codec.Covered(t.start, t.decodeMap) && Codec.Decode(t.start, t.decodeMap) == input
    && Codec.Covered(t.goal, t.decodeMap) && Codec.Decode(t.goal, t.decodeMap) == output
    && t.blank in t.decodeMap && t.decodeMap[t.blank] == ""
    && Codec.Injective(t.decodeMap)
    && (input == output ==> t.goal == t.start)
  }

  /** Lines 121-133: `encoder(input)`, then `encoderWithMap(output, …)`
      and `encodeMap.get("")!`. */
  function Prepare(input: Grid<string>, output: Grid<string>): (t: Setup)
    requires WellFormed(input) && WellFormed(output)
    requires Feasibility.MayConvertible(input, output)
    ensures t.hasBlank <==> "" in Flatten(input)
    ensures t.hasBlank ==> Faithful(t, input, output)
  {
    var e := Codec.Encode(input);
    Feasibility.MayConvertibleLabels(input, output);
    Codec.EncodeOther(input, output);
    Codec.DecodeEncode(input);
    Codec.DecodeEncodeWithMap(input, output);
    Codec.EncodeWithMapAgrees(input);
    var goal := Codec.EncodeWithMap(output, e.encodeMap);
    var blank := if e.hasBlank then e.encodeMap[""] else 0;
    Setup(e.grid, goal, blank, e.decodeMap, e.hasBlank)
  }

  /** A valid search can score every open grid against the goal. */
  lemma ValidScored(s: Search, start: Grid<nat>, blank: nat, goal: Grid<nat>)
    requires Valid(s, start, blank) && Rectangular(goal)
    requires forall v :: v in Flatten(goal) ==> v in Flatten(start)
    ensures Scored(s, goal)
  {
    forall x | x in s.open
      ensures Heuristic.Defined(x, goal)
    {
      Heuristic.PermDefined(x, start, goal);
    }
  }

  /** Closing `p` and relaxing all its neighbours has the effect
      `Expanded` describes. */
  lemma RelaxAllExpanded(s: Search, p: Grid<nat>, blank: nat)
    requires Keyed(s) && p in s.open && Rectangular(p)
    ensures Expanded(s, RelaxAll(Expand(s, p), p, Neighbours.NextStates(p, blank)), p, blank)
  {
    var ns := Neighbours.NextStates(p, blank);
    RelaxAllFacts(Expand(s, p), p, ns);
    RelaxAllTables(Expand(s, p), p, ns);
    RelaxAllOpen(Expand(s, p), p, ns);
    JoiningExpand(s, p, ns);
  }

  /** `Settled` pins the tables down: two results of expanding the same
      grid are the same tables. */
  lemma SettledUnique(s: Search, r: Search, t: Search, p: Grid<nat>, ns: seq<Grid<nat>>)
    requires Settled(s, r, p, ns) && Settled(s, t, p, ns)
    ensures r == t
  {
    assert forall x :: x in r.g <==> x in t.g;
    assert forall x :: x in r.parent <==> x in t.parent;
    assert r.g == t.g;
    assert r.parent == t.parent;
  }

  /** A step satisfies `Expanded` exactly when it is the code's expansion:
      remove `p` from `open`, close it, and relax its neighbours in the
      order they are generated. */
  lemma ExpandedExactly(s: Search, r: Search, p: Grid<nat>, blank: nat)
    requires Keyed(s) && p in s.open && Rectangular(p)
    ensures Expanded(s, r, p, blank) <==> r == RelaxAll(Expand(s, p), p, Neighbours.NextStates(p, blank))
  {
    RelaxAllExpanded(s, p, blank);
    if Expanded(s, r, p, blank) {
      SettledUnique(s, r, RelaxAll(Expand(s, p), p, Neighbours.NextStates(p, blank)), p, Neighbours.NextStates(p, blank));
    }
  }

  /** The `for (const q of …)` loop of lines 147-156, run over the
      neighbours of `p` in the order they are generated. Afterwards every
      neighbour is costed at most one step more than `p`, no cost has
      risen, `close` is as it was, open grids stay open, and a grid newly
      open is new or got cheaper. */
  method RelaxNeighbours(e: Search, blank: nat, p: Grid<nat>) returns (r: Search)
    requires Keyed(e) && p in e.g && Rectangular(p)
    ensures r == RelaxAll(e, p, Neighbours.NextStates(p, blank))
    ensures r.close == e.close && p in r.g && r.g[p] == e.g[p]
    ensures forall q :: q in Neighbours.NextStates(p, blank) ==> q in r.g && r.g[q] <= e.g[p] + 1
    ensures forall x :: x in e.g ==> x in r.g && r.g[x] <= e.g[x]
    ensures forall x :: x in e.open ==> x in r.open
    ensures forall x :: x in r.open && x !in e.open ==> x !in e.g || r.g[x] < e.g[x]
  {
    r := e;
    var next := Neighbours.NextStates(p, blank);
    var i := 0;
    while i < |next|
      invariant 0 <= i <= |next|
      invariant r == RelaxAll(e, p, next[..i])
    {
      RelaxAllPrefix(e, p, next, i);
      r := Relax(r, p, next[i]);
      i := i + 1;
    }
    assert next[..i] == next;
    RelaxAllFacts(e, p, next);
  }

  /** Lines 144-156: close `p` and relax each of its neighbours in turn. */
  method ExpandNode(s: Search, start: Grid<nat>, blank: nat, p: Grid<nat>) returns (r: Search)
    requires Valid(s, start, blank) && p in s.open
    ensures Valid(r, start, blank) && Expanded(s, r, p, blank)
  {
    ExpandValid(s, start, blank, p);
    assert Rectangular(p);
    r := RelaxNeighbours(Expand(s, p), blank, p);
    RelaxAllValid(Expand(s, p), start, blank, p, Neighbours.NextStates(p, blank));
    RelaxAllExpanded(s, p, blank);
  }

  /** One blank slide separates two different grids. */
  ghost predicate OneSlide<T>(p: Grid<T>, q: Grid<T>, blank: T) {
    p != q && Neighbours.Step(p, q, blank)
  }

  /** The goal is open at cost 1 with parent `start`, and every open grid
      costs at least 1. */
  ghost predicate GoalNext(s: Search, start: Grid<nat>, goal: Grid<nat>) {
    && goal in s.open && goal in s.parent && s.parent[goal] == start
    && goal in s.g && s.g[goal] == 1
    && forall x :: x in s.open ==> x in s.g && s.g[x] >= 1
  }

  /** When the goal is one slide from the start, expanding the start puts
      the goal in `open` at cost 1 with `start` as its parent, and leaves
      only grids of cost at least 1 open. */
  lemma GoalAfterFirst(start: Grid<nat>, goal: Grid<nat>, blank: nat, r: Search)
    requires Rectangular(start) && OneSlide(start, goal, blank)
    requires Tree(r, start) && Expanded(Initial(start), r, start, blank)
    ensures GoalNext(r, start, goal)
  {
    Neighbours.NextStatesExact(start, blank, goal);
    assert goal !in Initial(start).g;
    assert goal in r.open && goal in r.g && r.g[goal] <= 1;
    var up := r.parent[goal];
    assert r.g[up] == 0;
    if up != start {
      assert false;
    }
    assert start !in r.open;
    forall x | x in r.open
      ensures x in r.g && r.g[x] >= 1
    {
      assert x != start && x in r.parent;
    }
  }

  /** A grid other than the goal, of the goal's shape and cost at least 1,
      scores at least 2. */
  lemma ScoreOffGoal(s: Search, goal: Grid<nat>, x: Grid<nat>)
    requires x in s.g && s.g[x] >= 1 && Heuristic.Defined(x, goal)
    requires SameShape(x, goal) && x != goal
    ensures F(s, goal, x) >= 2
  {
    Heuristic.HCostZeroIff(x, goal);
  }

  /** A valid search whose open grids all cost at least 1, with the goal
      open at cost 1, selects the goal: it alone has `F` equal to 1. */
  lemma SelectsGoal(s: Search, start: Grid<nat>, goal: Grid<nat>, blank: nat)
    requires Valid(s, start, blank) && Rectangular(goal) && SameShape(goal, start)
    requires forall v :: v in Flatten(goal) ==> v in Flatten(start)
    requires GoalNext(s, start, goal)
    ensures Scored(s, goal) && s.open[BestIndex(s, goal)] == goal
  {
    ValidScored(s, start, blank, goal);
    BestIndexLeast(s, goal);
    var k := BestIndex(s, goal);
    var x := s.open[k];
    var j :| 0 <= j < |s.open| && s.open[j] == goal;
    assert F(s, goal, x) <= F(s, goal, s.open[j]) == 1;
    if x != goal {
      assert Perm(x, start);
      ScoreOffGoal(s, goal, x);
      assert false;
    }
  }

  /** One pass of the loop body (lines 141-156) that does not stop: the
      selected grid of `a` is not the goal, and `b` is `a` after expanding
      it. */
  ghost predicate Turn(a: Search, b: Search, start: Grid<nat>, goal: Grid<nat>, blank: nat) {
    && Valid(a, start, blank) && |a.open| > 0 && Scored(a, goal)
    && a.open[BestIndex(a, goal)] != goal
    && Expanded(a, b, a.open[BestIndex(a, goal)], blank)
  }

  /** The successive tables of a run of the loop: it starts from the
      initial tables and each step is one `Turn`. */
  ghost predicate Trail(trace: seq<Search>, start: Grid<nat>, goal: Grid<nat>, blank: nat) {
    && |trace| >= 1 && trace[0] == Initial(start)
    && forall i :: 0 < i < |trace| ==> Turn(trace[i - 1], trace[i], start, goal, blank)
  }

  lemma TrailExtend(trace: seq<Search>, b: Search, start: Grid<nat>, goal: Grid<nat>, blank: nat)
    requires Trail(trace, start, goal, blank) && Turn(trace[|trace| - 1], b, start, goal, blank)
    ensures Trail(trace + [b], start, goal, blank)
  {
    var t := trace + [b];
    forall i | 0 < i < |t|
      ensures Turn(t[i - 1], t[i], start, goal, blank)
    {
      if i < |trace| {
        assert t[i - 1] == trace[i - 1] && t[i] == trace[i];
      }
    }
  }

  /** The loop of lines 140-157, cut short after `fuel` expansions. Unless
      cut short it ends with `open` empty or the goal selected. Equal grids
      stop it at once; a goal one slide away is reached, with `start` as
      its parent, before the bound cuts in. */
  method Explore(start: Grid<nat>, goal: Grid<nat>, blank: nat, fuel: nat)
    returns (s: Search, cut: bool, ghost trace: seq<Search>)
    requires Rectangular(start) && Rectangular(goal)
    requires forall v :: v in Flatten(goal) ==> v in Flatten(start)
    ensures Valid(s, start, blank) && Scored(s, goal)
    ensures Trail(trace, start, goal, blank) && trace[|trace| - 1] == s
    ensures |trace| - 1 <= fuel
    ensures cut ==> |trace| - 1 == fuel && |s.open| > 0 && s.open[BestIndex(s, goal)] != goal
    ensures !cut ==> |s.open| == 0 || s.open[BestIndex(s, goal)] == goal
    ensures start == goal ==> !cut && s == Initial(start)
    ensures OneSlide(start, goal, blank) && fuel >= 1 ==>
      !cut && goal in s.parent && s.parent[goal] == start
  {
    s := Initial(start);
    InitialValid(start, blank);
    var left := fuel;
    cut := false;
    trace := [s];
    while |s.open| > 0
      invariant Valid(s, start, blank) && !cut
      invariant Trail(trace, start, goal, blank) && trace[|trace| - 1] == s
      invariant |trace| - 1 + left == fuel
      invariant start == goal ==> s == Initial(start)
      invariant OneSlide(start, goal, blank) && fuel >= 1 ==>
        (left == fuel && s == Initial(start)) || GoalNext(s, start, goal)
      decreases left
    {
      ValidScored(s, start, blank, goal);
      var p := s.open[BestIndex(s, goal)];
      if OneSlide(start, goal, blank) && fuel >= 1 && GoalNext(s, start, goal) {
        SelectsGoal(s, start, goal, blank);
      }
      if p == goal {
        return;
      }
      if left == 0 {
        cut := true;
        return;
      }
      ghost var before := s;
      left := left - 1;
      s := ExpandNode(s, start, blank, p);
      TrailExtend(trace, s, start, goal, blank);
      trace := trace + [s];
      if OneSlide(start, goal, blank) && fuel >= 1 && before == Initial(start) {
        GoalAfterFirst(start, goal, blank, s);
      }
    }
    ValidScored(s, start, blank, goal);
  }

  /** A linked path from `start` to a grid whose parent is `start` has just
      the two grids. */
  lemma TwoGridPath(s: Search, start: Grid<nat>, goal: Grid<nat>, path: seq<Grid<nat>>)
    requires Tree(s, start) && goal in s.parent && s.parent[goal] == start
    requires Linked(s, path) && |path| >= 2 && path[0] == start && path[|path| - 1] == goal
    ensures path == [start, goal]
  {
    var k := |path| - 1;
    assert path[k - 1] == start;
    if k - 1 > 0 {
      assert false;
    }
  }

  /** Renaming the labels as ids keeps a single slide a single slide: the
      decode table is one-to-one, so the id grids differ exactly as the
      label grids do. */
  lemma SlideEncoded(t: Setup, input: Grid<string>, output: Grid<string>)
    requires Faithful(t, input, output) && OneSlide(input, output, "")
    ensures OneSlide(t.start, t.goal, t.blank)
  {
    var a, c :| InBounds(input, a) && InBounds(input, c) && At(input, a) == "" && Dist(a, c) == 1
      && output == Swap(input, a, c);
    var d := t.decodeMap;
    assert InBounds(t.start, a) && InBounds(t.start, c);
    Codec.LookupSwap(t.start, d, a, c);
    var h := Swap(t.start, a, c);
    Codec.LookupInjective(h, t.goal, d);
    assert d[At(t.start, a)] == d[t.blank];
  }

  /** Lines 158-172: follow the parent links back from the goal and decode
      the path. It is a solution, and just the two end grids when the
      goal's parent is the start. */
  method Trace(t: Setup, ghost input: Grid<string>, ghost output: Grid<string>, s: Search)
    returns (grids: seq<Grid<string>>)
    requires Faithful(t, input, output) && Valid(s, t.start, t.blank) && t.goal in s.parent
    ensures IsSolution(grids, input, output)
    ensures s.parent[t.goal] == t.start ==> grids == [input, output]
  {
    var path := Reconstruct(s, t.start, t.goal);
    LinkedSlides(s, t.start, t.blank, path);
    PathCovered(path, t.start, t.decodeMap);
    DecodeAllSteps(path, t.decodeMap, t.blank);
    grids := DecodeAll(path, t.decodeMap);
    if s.parent[t.goal] == t.start {
      TwoGridPath(s, t.start, t.goal, path);
      DecodePair(t.start, t.goal, t.decodeMap);
    }
  }

  /** Lines 134-172 on a prepared problem: search, then either report that
      the goal was not reached or decode the path to it. `s` is the final
      state of the search tables and `trace` the tables after each of the
      at most `fuel` expansions; `OutOfFuel` comes only after all `fuel`
      of them. */
  method Run(t: Setup, ghost input: Grid<string>, ghost output: Grid<string>, fuel: nat)
    returns (r: Outcome, s: Search, ghost trace: seq<Search>)
    requires Faithful(t, input, output)
    ensures Valid(s, t.start, t.blank) && Scored(s, t.goal)
    ensures Trail(trace, t.start, t.goal, t.blank) && trace[|trace| - 1] == s
    ensures |trace| - 1 <= fuel
    ensures r.OutOfFuel? ==> |trace| - 1 == fuel && |s.open| > 0 && s.open[BestIndex(s, t.goal)] != t.goal
    ensures r.Code3? || r.Path? || r.OutOfFuel?
    ensures !r.OutOfFuel? ==> |s.open| == 0 || s.open[BestIndex(s, t.goal)] == t.goal
    ensures !r.OutOfFuel? ==> (r == Code3 <==> t.goal !in s.parent)
    ensures input == output ==> r == Code3
    ensures r.Path? ==> IsSolution(r.grids, input, output)
    ensures OneSlide(input, output, "") && fuel >= 1 ==> r == Path([input, output])
  {
    var cut;
    s, cut, trace := Explore(t.start, t.goal, t.blank, fuel);
    ghost var near := OneSlide(input, output, "") && fuel >= 1;
    if near {
      SlideEncoded(t, input, output);
    }
    if cut {
      return OutOfFuel, s, trace;
    }
    if t.goal !in s.parent {
      return Code3, s, trace;
    }
    var grids := Trace(t, input, output, s);
    r := Path(grids);
  }

  /** A single slide needs a blank and keeps every count, so it passes the
      checks of lines 117-124. */
  lemma SlideFeasible(input: Grid<string>, output: Grid<string>)
    requires OneSlide(input, output, "")
    ensures Feasibility.MayConvertible(input, output) && "" in Flatten(input)
  {
    var a, c :| InBounds(input, a) && InBounds(input, c) && At(input, a) == "" && Dist(a, c) == 1
      && output == Swap(input, a, c);
    SwapCells(input, a, c);
    AtInFlatten(input, a);
  }

  /** `solver(input, output)` (lines 116-173), with at most `fuel`
      expansions. */
  method Solve(input: Grid<string>, output: Grid<string>, fuel: nat) returns (r: Outcome)
    requires WellFormed(input) && WellFormed(output)
    ensures r == Code1 <==> !Feasibility.MayConvertible(input, output)
    ensures r == Code2 <==> Feasibility.MayConvertible(input, output) && "" !in Flatten(input)
    ensures Feasibility.MayConvertible(input, output) && "" in Flatten(input) && input == output
      ==> r == Code3
    ensures r.Path? ==> IsSolution(r.grids, input, output)
    ensures OneSlide(input, output, "") && fuel >= 1 ==> r == Path([input, output])
  {
    if OneSlide(input, output, "") {
      SlideFeasible(input, output);
    }
    if !Feasibility.MayConvertible(input, output) {
      return Code1;
    }
    var t := Prepare(input, output);
    if !t.hasBlank {
      return Code2;
    }
    var final;
    ghost var trace;
    r, final, trace := Run(t, input, output, fuel);
  }
}
